=== FILE: README.md ===
# Offline task sync, reducers and theme resolution — a Dafny model

This project models the core of a React Native task manager.

- **The offline synchronisation engine.** A task is first written to the local Realm database. The app then attempts a remote write to Firestore. When that write is not possible, the change is recorded in a pending-change table, and a later drain replays that table against the remote store in timestamp order.
- **The Redux reducers** of the `tasks`, `settings` and `auth` slices.
- **The theme provider's rule** for deciding between the dark and the light palette.

All state is immutable. Every operation is a function from the state before to the state after. The model takes these things as arguments:

- the clock (`nowIso`, `nowMs`) and freshly generated ids (`generatedId`, `changeId`);
- the signed-in Firebase user (`authUser`) and the system colour scheme;
- whether the network and the server accept a remote call (`ok`, or one boolean per drained row in `net`).

Modules, one per file:

| module | file | models |
|---|---|---|
| `Js` | js.dfy | JavaScript value shapes: `null`, a property that is missing / holds `undefined` / holds a value, thrown errors as `Result` |
| `Realm` | realm.dfy | the two Realm tables, `toTaskR`, reading a row back, the shared database handle |
| `Firestore` | firestore.dfy | the remote task documents and `addTaskWithId`, `updateTask`, `deleteTask`, `getCurrentUserId` |
| `PendingQueue` | pending_queue.dfy | the pending-change table as a timestamp-ordered queue |
| `OfflineRepo` | offline_repo.dfy | local writes, `queueChange`, the three façade calls and `processQueue` |
| `Convergence` | convergence.dfy | the end-to-end theorem, and why each of its conditions is needed |
| `TaskSlice`, `SettingsSlice`, `AuthSlice` | task_slice.dfy, settings_slice.dfy, auth_slice.dfy | the reducers |
| `ThemeContext` | theme_context.dfy | `isDark`, the provider's toggle, the palette, `useTheme` |

The central result is `Convergence.OfflineSessionConverges`:

- Start with the local tables and the remote store in sync, and an empty pending-change table.
- Make any sequence of add, update and delete calls while no remote write gets through.
- Then drain once for a signed-in user, with every remote call accepted.
- The pending-change table ends empty, and that user's remote documents are exactly the local tasks. Each document holds the task's title, description, completion flag and due date. Timestamps and the owner stamp are not compared.

The theorem needs two conditions:

- each queued change is stamped strictly later than the one before it;
- no update carries a `description` or `dueDate` key that holds `undefined`.

The lemmas at the end of convergence.dfy show what goes wrong without each condition.

## Behaviour worth knowing

The model follows the code in each case below.

- **A failed `add` is still dequeued.** The drain ignores the error that `addTaskWithId` reports (src/storage/offlineRepo.ts:81-84). It then reaches the unconditional "remove processed item" delete (src/storage/offlineRepo.ts:93-94), so an `add` row leaves the table even when the remote create was rejected, and that task never reaches the remote store (`Convergence.FailedAddIsDequeued`). An `add` that has neither a payload nor a local task is deleted without any remote call (src/storage/offlineRepo.ts:80).
- **Among the remote and parse outcomes the model covers, only a failing `update` or `delete`, or an unparsable payload, stops the drain.** Their errors are rethrown (src/storage/offlineRepo.ts:87, 91), and the handler then breaks out of the loop, as its comment "stop processing further to avoid tight loop" says (src/storage/offlineRepo.ts:95-97). The loop attempts no later row: the rows from the stopping point on have no remote effect, and they wait for the next drain (`OfflineRepo.HaltedRowsUnsent`, `OfflineRepo.ProcessQueue`).
- **Changes stamped in the same millisecond have no fixed order.** The table is read through `sorted('timestamp')` (src/storage/offlineRepo.ts:63), and `timestamp` is `Date.now()` (src/storage/offlineRepo.ts:55). Two changes stamped in the same millisecond may replay in either order, and an add/delete pair can then leave different remote states (`Convergence.TiedTimestampsMayReorder`).
- **Clearing a description leaves the two stores different.** Suppose an update's `description` key holds `undefined`. The local upsert skips it, so the old description stays (src/storage/offlineRepo.ts:159). The remote update sends `null` (src/storage/offlineRepo.ts:174, 182). The add screen does pass `description: optimistic.description`, which is `undefined` for an empty field, to the repository (src/screens/Tasks/AddTaskScreen.tsx:79-83). The two stores then disagree (`Convergence.ClearedDescriptionDiverges`).
- **An update of a missing remote document stalls the queue.** A remote `update` of a document that does not exist fails, so the drain stops there until the document appears (`Convergence.UpdateOfMissingDocumentStalls`).

## Model

| member | source | states |
|---|---|---|
| Realm.ToTaskR | src/storage/realm.ts:66-77 | the stored record copies the identity, title, owner and timestamps; a description or due date is stored only when it is present and not null; completion is stored true exactly when the input holds `true` |
| Realm.ReadTask | src/storage/offlineRepo.ts:34-43 | normalising a row that was read back gives the same row again |
| Realm.ReadBackRoundTrip | src/storage/offlineRepo.ts:30-44 | storing a task and reading it back keeps every field, except that a missing, `undefined` or `null` description or due date reads back as `undefined` |
| Realm.OpenRealm | src/storage/realm.ts:51-57 | an open handle is reused; otherwise the result of opening is kept, and a failure keeps nothing |
| Realm.GetRealmSync | src/storage/realm.ts:59-64 | fails with the fixed message exactly when the database was never opened |
| Realm.OpenRealmIdempotent | src/storage/realm.ts:51-64 | once opened, every later open and every synchronous get return the same instance |
| Firestore.CurrentUserId | src/firebase/config.ts:33 | a user id exists exactly when someone is signed in with a non-empty uid |
| Firestore.Merge | src/firebase/config.ts:104-123 | a partial update overwrites exactly the fields it supplies |
| Firestore.AddTaskWithId | src/firebase/config.ts:10-31 | succeeds exactly when signed in and accepted; then it overwrites the user's document with the data stamped with the uid, and leaves all other documents alone |
| Firestore.UpdateTask | src/firebase/config.ts:104-123 | succeeds exactly when signed in, accepted, and the document exists; then it merges the update and keeps the owner stamp |
| Firestore.DeleteTask | src/firebase/config.ts:125-141 | succeeds when signed in and accepted, even if the document is missing; then it removes that one document |
| PendingQueue.Insert | src/storage/offlineRepo.ts:63 | inserting into a timestamp-sorted sequence keeps it sorted and adds exactly one row |
| PendingQueue.SortByTimestamp | src/storage/offlineRepo.ts:63 | gives a sorted permutation of the table |
| PendingQueue.RemoveIds | src/storage/offlineRepo.ts:94 | deleting rows by key keeps exactly the rows whose key is not listed, removes everything when every key is listed, and nothing when none is |
| PendingQueue.AppendFreshKeepsUniqueIds | src/storage/realm.ts:38-48 | inserting under a fresh primary key keeps the keys distinct |
| PendingQueue.SnapshotKeepsUniqueIds | src/storage/offlineRepo.ts:63 | a sorted snapshot of a table with distinct keys has distinct keys |
| PendingQueue.StrictlyTimedSnapshotIsUnique | src/storage/offlineRepo.ts:63 | when timestamps strictly increase, the sorted snapshot is the insertion order itself |
| PendingQueue.AppendLaterKeepsStrictlyTimed | src/storage/offlineRepo.ts:46-58 | a row stamped later than every queued row keeps the table strictly increasing |
| OfflineRepo.SaveTaskLocal | src/storage/offlineRepo.ts:13-19 | an upsert stores the normalised record under its id and leaves every other row alone |
| OfflineRepo.DeleteTaskLocal | src/storage/offlineRepo.ts:21-28 | removes that row only; a missing row changes nothing |
| OfflineRepo.GetAllTasksLocal | src/storage/offlineRepo.ts:30-44 | returns exactly one object per stored row, each of which normalises back to its row |
| OfflineRepo.QueueChange | src/storage/offlineRepo.ts:46-58 | appends one row with the given operation, task, payload and stamp; fails on a duplicate key; keeps keys distinct |
| OfflineRepo.Mirror | src/storage/offlineRepo.ts:74-79 | the fallback add data names all four client fields, and none of them holds `undefined` |
| OfflineRepo.NewTaskId | src/storage/offlineRepo.ts:111 | the supplied id when it is non-empty, else a generated one |
| OfflineRepo.RepoAddTask | src/storage/offlineRepo.ts:103-149 | the record saved locally; a remote create of the same fields when signed in and accepted, otherwise exactly one queued `add` carrying them; returns the id |
| OfflineRepo.RemotePatch | src/storage/offlineRepo.ts:172-177 | sends exactly the keys present in the input, with a missing description or due date value sent as `null` |
| OfflineRepo.RepoUpdateTask | src/storage/offlineRepo.ts:151-187 | writes each defined field locally and refreshes `updatedAt`; merges the patch remotely or queues one `update`; an unknown task throws before any change |
| OfflineRepo.RepoDeleteTask | src/storage/offlineRepo.ts:189-199 | deletes locally, then remotely, or queues one payload-free `delete` |
| OfflineRepo.AddData | src/storage/offlineRepo.ts:69-79 | add data is the payload, else the local task's fields, else nothing |
| OfflineRepo.ReplayEntry | src/storage/offlineRepo.ts:67-98 | an unparsable payload stops the drain; an add is always dequeued, after creating its data remotely when it has any; an update or delete is dequeued with the remote call's result when that call succeeds, and stops the drain exactly when it fails; other users' documents are untouched |
| OfflineRepo.Replay | src/storage/offlineRepo.ts:67-99 | the stopping point is no later than the first unparsable row or refused update or delete; the row the drain stops at is unparsable, an update, or a delete that failed; it never touches another user's documents |
| OfflineRepo.ReplayStopsOnlyAtHalt | src/storage/offlineRepo.ts:67-99 | the drain stops only at a row whose replay, from the store the earlier rows left, halts: an unparsable row, or an update or delete whose call fails; an accepted update is dequeued and the drain goes on |
| OfflineRepo.HaltedRowsUnsent | src/storage/offlineRepo.ts:67-99 | the rows from the stopping point on have no remote effect: replaying only the dequeued prefix gives the same store and the same count, because the loop breaks before any later row (offlineRepo.ts:97) |
| OfflineRepo.ProcessQueue | src/storage/offlineRepo.ts:60-100 | without a user nothing changes; with one, the remote store and the stopping point are those of the replay, which never gets past an unparsable row or a refused update or delete; the local table is only read; exactly the rows of the dequeued snapshot prefix leave the table; keys stay distinct |
| OfflineRepo.DrainDequeuesPrefix | src/storage/offlineRepo.ts:67-99 | a row of the snapshot is still queued exactly when it is at or after the stopping point |
| OfflineRepo.DrainRemovesOldestFirst | src/storage/offlineRepo.ts:63-99 | every dequeued row is stamped no later than every row left queued |
| Convergence.ReplayAppend | src/storage/offlineRepo.ts:67-99 | replaying one more row after a complete replay is one more step |
| Convergence.ReplayIgnoresLocal | src/storage/offlineRepo.ts:72-79 | the local table matters to a drain only through add rows without a payload |
| Convergence.OfflineAddKeepsReplayable | src/storage/offlineRepo.ts:103-149 | an offline add queues one row, and replaying the table then brings the remote store in line with the new local table |
| Convergence.UpdateAgrees | src/storage/offlineRepo.ts:157-177 | the remote merge of an update equals its local write when no description or due date key holds `undefined` |
| Convergence.OfflineUpdateKeepsReplayable | src/storage/offlineRepo.ts:151-187 | the same for an offline update without `undefined` description or due date |
| Convergence.OfflineDeleteKeepsReplayable | src/storage/offlineRepo.ts:189-199 | the same for an offline delete |
| Convergence.RunOfflineKeepsReplayable | src/storage/offlineRepo.ts:103-199 | any sequence of offline calls with fresh keys and a strictly advancing clock keeps the table replayable |
| Convergence.DrainConverges | src/storage/offlineRepo.ts:60-100 | a fully accepted drain of a replayable table empties it and leaves the remote store mirroring the local one |
| Convergence.OfflineSessionConverges | src/storage/offlineRepo.ts:60-199 | offline calls followed by a fully accepted drain leave the table empty and the user's remote tasks equal to the local tasks |
| Convergence.TiedTimestampsMayReorder | src/storage/offlineRepo.ts:55-63 | an add and a delete stamped in the same millisecond can be replayed in either order, with different remote results |
| Convergence.ClearedDescriptionDiverges | src/storage/offlineRepo.ts:157-177 | an update whose description holds `undefined` keeps the local description but clears the remote one |
| Convergence.FailedAddIsDequeued | src/storage/offlineRepo.ts:80-94 | an add whose remote create is rejected is deleted from the table anyway |
| Convergence.UpdateOfMissingDocumentStalls | src/storage/offlineRepo.ts:85-97 | an update of a missing remote document stops the drain, and every later row stays queued |
| TaskSlice.FindIndex | src/redux/slices/taskSlice.ts:51 | the position of the first task with the id, or -1 exactly when there is none |
| TaskSlice.FetchTasksStart | src/redux/slices/taskSlice.ts:32-35 | loading is set and the error cleared; the tasks are untouched |
| TaskSlice.FetchTasksSuccess | src/redux/slices/taskSlice.ts:36-41 | the fetched list replaces the tasks; loading and error are cleared; the change time is set |
| TaskSlice.FetchTasksFailure | src/redux/slices/taskSlice.ts:42-45 | loading ends and the message becomes the error; the tasks are untouched |
| TaskSlice.AddTask | src/redux/slices/taskSlice.ts:46-49 | the task is appended, and the earlier tasks are unchanged |
| TaskSlice.UpdateTask | src/redux/slices/taskSlice.ts:50-56 | replaces the first task with the same id and nothing else; with no match nothing changes, not even the change time |
| TaskSlice.Without | src/redux/slices/taskSlice.ts:58 | keeps exactly the tasks with another id; with no match, the list is unchanged |
| TaskSlice.WithoutAppend | src/redux/slices/taskSlice.ts:58 | filtering distributes over concatenation, so the remaining tasks keep their order |
| TaskSlice.WithoutIdempotent | src/redux/slices/taskSlice.ts:58 | deleting the same id twice is deleting it once |
| TaskSlice.DeleteTask | src/redux/slices/taskSlice.ts:57-60 | no task with the id remains; the change time is set even if nothing was removed |
| TaskSlice.ToggleTaskCompletion | src/redux/slices/taskSlice.ts:61-68 | flips the flag of the first matching task only and refreshes its `updatedAt`; a missing id changes nothing |
| TaskSlice.ToggleTwiceRestores | src/redux/slices/taskSlice.ts:61-68 | toggling twice restores every task field except `updatedAt`, and the loading flag and error; the state's `lastUpdated` is refreshed when the task exists, and a missing id changes nothing |
| TaskSlice.ClearError | src/redux/slices/taskSlice.ts:69-71 | only the error changes |
| TaskSlice.OnlyFetchesLoad | src/redux/slices/taskSlice.ts:31-72 | no action other than fetch-start turns loading on |
| SettingsSlice.SetTheme | src/redux/slices/settingsSlice.ts:25-27 | only the theme changes |
| SettingsSlice.ToggleTheme | src/redux/slices/settingsSlice.ts:28-30 | light becomes dark; dark and system become light; never system |
| SettingsSlice.SetNotificationsEnabled | src/redux/slices/settingsSlice.ts:31-33 | only that preference changes |
| SettingsSlice.SetSyncOnCellular | src/redux/slices/settingsSlice.ts:34-36 | only that preference changes |
| SettingsSlice.SetFirstLaunch | src/redux/slices/settingsSlice.ts:37-39 | only that flag changes |
| SettingsSlice.SetLastSync | src/redux/slices/settingsSlice.ts:40-42 | only the last sync time changes |
| SettingsSlice.ResetRestoresInitial | src/redux/slices/settingsSlice.ts:13-43 | reset yields the initial state (light, notifications on, no cellular sync, first launch, no sync time) from any state |
| SettingsSlice.SettersIdempotent | src/redux/slices/settingsSlice.ts:25-43 | every setter and reset, applied twice, equals applying it once |
| SettingsSlice.ToggleTwice | src/redux/slices/settingsSlice.ts:28-30 | toggling twice restores light or dark; from system it ends at dark |
| AuthSlice.SetUser | src/redux/slices/authSlice.ts:81-84 | stores the user; authenticated exactly when a user is given |
| AuthSlice.ClearError | src/redux/slices/authSlice.ts:85-87 | only the error changes |
| AuthSlice.Pending | src/redux/slices/authSlice.ts:91-94 | loading is set and the error cleared; the user is untouched |
| AuthSlice.Fulfilled | src/redux/slices/authSlice.ts:95-100 | the user is stored and authenticated; loading and error are cleared |
| AuthSlice.Rejected | src/redux/slices/authSlice.ts:101-104 | loading ends with the message as the error; the user and authentication are untouched |
| AuthSlice.LogoutFulfilled | src/redux/slices/authSlice.ts:123-128 | no user and not authenticated; loading and error are cleared |
| AuthSlice.LogoutRejected | src/redux/slices/authSlice.ts:129-131 | only the error is set |
| AuthSlice.ReduceKeepsConsistent | src/redux/slices/authSlice.ts:19-131 | the initial state has no user and is not authenticated; every reducer case keeps "authenticated exactly when a user is stored" |
| AuthSlice.AlwaysConsistent | src/redux/slices/authSlice.ts:77-133 | that agreement holds after any sequence of actions |
| ThemeContext.InitialIsDark | src/theme/ThemeContext.tsx:20 | a stored dark is dark and a stored light is light, whatever the system scheme |
| ThemeContext.EffectIsDark | src/theme/ThemeContext.tsx:23-29 | the same rule as the effect applies it |
| ThemeContext.InitialAgreesWithEffect | src/theme/ThemeContext.tsx:20-29 | the mount value and the effect agree; under `system`, dark exactly when the system scheme is dark |
| ThemeContext.ToggleTarget | src/theme/ThemeContext.tsx:31-34 | dispatches light when dark and dark when light, never system |
| ThemeContext.ChoosePalette | src/theme/ThemeContext.tsx:36 | the dark palette exactly when dark |
| ThemeContext.ProviderToggleFlips | src/theme/ThemeContext.tsx:23-36 | the provider's toggle flips what is shown and the palette, whatever the system scheme |
| ThemeContext.SliceToggleFromSystemMayNotFlip | src/redux/slices/settingsSlice.ts:28-30 | the slice's own toggle from `system` under a light system scheme leaves the screen light |
| ThemeContext.ProviderValue | src/theme/ThemeContext.tsx:36-42 | the provided palette is the dark one exactly when the provided flag is dark |
| ThemeContext.UseTheme | src/theme/ThemeContext.tsx:45-51 | fails with the fixed message exactly outside a provider, and otherwise returns the provider's value |
| ThemeContext.UseThemeInsideProvider | src/theme/ThemeContext.tsx:36-51 | inside a provider, `useTheme` succeeds with the resolved flag and the palette that matches it |

## Left out

- Opening the database inside the façade calls (`ensureRealm`). A failure to open would throw before any change, so every operation is modelled on an open database. `Realm.OpenRealm` models the handle on its own.
- `genId`, `Date.now()` and `new Date().toISOString()` are parameters. Freshness of generated ids is an assumption of the convergence lemmas, not something the model produces.
- The JSON text of payloads. A `Date` is identified with its ISO string, and a payload that does not parse is the `Unparsable` case. The `op` column is assumed to hold one of the three operation names; the code would dequeue a row with any other name without a remote call.
- Server timestamps (`createdAt`/`updatedAt` on remote documents), and Firestore's own offline cache. Whether a remote call succeeds is the single oracle `ok` per call.
- Local write failures inside the drain. The `try` at src/storage/offlineRepo.ts:68-94 also wraps the local `realm.delete` of a row (offlineRepo.ts:80, 94). If that write throws, the `catch` at :95-97 stops the drain as well. When the remote call had already succeeded, the row stays queued and is sent again on the next drain. The model treats every local write as succeeding.
- Concurrent drains. The periodic timer in App.tsx is not part of this model, and each drain is modelled as running to completion on a snapshot taken at its start.
- Firestore.Written: assumes the remote store drops a field that holds `undefined` rather than rejecting the call; src/firebase/config.ts does not strip such fields. This matters only for a direct `repoUpdateTask` whose `title` or `isCompleted` key is present but `undefined` (src/storage/offlineRepo.ts:173, 175). A queued payload goes through `JSON.stringify`, which drops such keys anyway.
- Realm's column default for `isCompleted`. Every write in the code supplies a value.
- Screens, navigation, notifications, the palette colours in src/theme/theme.ts, `withTheme`, the async thunk bodies of the auth slice and the store wiring. These are UI or service glue.
- Convergence.OfflineSessionConverges: proved only for calls made while no remote write gets through, with fresh change ids, a strictly advancing clock and no `undefined` description or due date. Mixed online/offline sessions are not covered. The lemmas above show the last two conditions are needed.
- Convergence.DrainConverges: "in sync" compares the document set and the four client fields. It does not compare timestamps, or `userId` on any document. Local and remote `userId` can really differ after convergence: a task added while signed out is stored locally with `userId: 'local'` (src/screens/Tasks/AddTaskScreen.tsx:88, 108), while `addTaskWithId` stamps the signed-in user's uid (src/firebase/config.ts:22).
- Convergence.OfflineSessionConverges: the same comparison, so the same `userId` difference is not ruled out.

=== FILE: auth_slice.dfy ===
/** The reducer of the `auth` slice of the Redux store
    (src/redux/slices/authSlice.ts): the signed-in user, whether someone is
    signed in, a loading flag and the last error. The thunks that talk to
    the authentication service are not modelled; only the actions they
    dispatch are. */
module AuthSlice {
  import opened Js

  datatype User = User(uid: string, email: Nullable<string>, displayName: Nullable<string>)

  datatype AuthState = AuthState(
    user: Nullable<User>,
    isAuthenticated: bool,
    isLoading: bool,
    error: Nullable<string>)

  const Initial := AuthState(Null, false, false, Null)

  /** Someone is signed in exactly when a user is stored. */
  predicate Consistent(s: AuthState) {
    s.isAuthenticated <==> s.user.NonNull?
  }

  /** setUser: stores the user, or `null`; a user object is always truthy. */
  function SetUser(s: AuthState, u: Nullable<User>): (r: AuthState)
    ensures r.user == u
    ensures r.isAuthenticated <==> u.NonNull?
    ensures r.isLoading == s.isLoading && r.error == s.error
  {
    s.(user := u, isAuthenticated := u.NonNull?)
  }

  /** clearError: only the error changes. */
  function ClearError(s: AuthState): (r: AuthState)
    ensures r.error == Null
    ensures r.user == s.user && r.isAuthenticated == s.isAuthenticated && r.isLoading == s.isLoading
  {
    s.(error := Null)
  }

  /** The `pending` case of login and of register. */
  function Pending(s: AuthState): (r: AuthState)
    ensures r.isLoading && r.error == Null
    ensures r.user == s.user && r.isAuthenticated == s.isAuthenticated
  {
    s.(isLoading := true, error := Null)
  }

  /** The `fulfilled` case of login and of register. */
  function Fulfilled(s: AuthState, u: User): (r: AuthState)
    ensures r.user == NonNull(u) && r.isAuthenticated
    ensures !r.isLoading && r.error == Null
  {
    AuthState(NonNull(u), true, false, Null)
  }

  /** The `rejected` case of login and of register: the thunk rejects
      with a message, which becomes the error. */
  function Rejected(s: AuthState, message: string): (r: AuthState)
    ensures !r.isLoading && r.error == NonNull(message)
    ensures r.user == s.user && r.isAuthenticated == s.isAuthenticated
  {
    s.(isLoading := false, error := NonNull(message))
  }

  /** logoutUser.fulfilled: nobody is signed in any more. */
  function LogoutFulfilled(s: AuthState): (r: AuthState)
    ensures r.user == Null && !r.isAuthenticated
    ensures !r.isLoading && r.error == Null
  {
    AuthState(Null, false, false, Null)
  }

  /** logoutUser.rejected: only the error is set; the user stays signed in. */
  function LogoutRejected(s: AuthState, message: string): (r: AuthState)
    ensures r.error == NonNull(message)
    ensures r.user == s.user && r.isAuthenticated == s.isAuthenticated && r.isLoading == s.isLoading
  {
    s.(error := NonNull(message))
  }

  datatype AuthAction =
    | SetUserTo(payload: Nullable<User>)
    | Clear
    | LoginPending
    | LoginFulfilled(user: User)
    | LoginRejected(message: string)
    | RegisterPending
    | RegisterFulfilled(user: User)
    | RegisterRejected(message: string)
    | LogoutDone
    | LogoutFailed(message: string)

  function Reduce(s: AuthState, a: AuthAction): AuthState {
    match a
    case SetUserTo(u) => SetUser(s, u)
    case Clear => ClearError(s)
    case LoginPending => Pending(s)
    case LoginFulfilled(u) => Fulfilled(s, u)
    case LoginRejected(m) => Rejected(s, m)
    case RegisterPending => Pending(s)
    case RegisterFulfilled(u) => Fulfilled(s, u)
    case RegisterRejected(m) => Rejected(s, m)
    case LogoutDone => LogoutFulfilled(s)
    case LogoutFailed(m) => LogoutRejected(s, m)
  }

  /** The store after a sequence of actions. */
  function ReduceAll(s: AuthState, actions: seq<AuthAction>): AuthState
    decreases |actions|
  {
    if |actions| == 0 then s else ReduceAll(Reduce(s, actions[0]), actions[1..])
  }

  /** The initial state is consistent, and every case of the reducer keeps
      `isAuthenticated` in step with the stored user. */
  lemma ReduceKeepsConsistent(s: AuthState, a: AuthAction)
    requires Consistent(s)
    ensures Consistent(Initial)
    ensures Consistent(Reduce(s, a))
  {
  }

  /** From the initial state, `isAuthenticated` agrees with the stored user
      after any sequence of actions. */
  lemma {:induction false} AlwaysConsistent(s: AuthState, actions: seq<AuthAction>)
    requires Consistent(s)
    ensures Consistent(ReduceAll(s, actions))
    decreases |actions|
  {
    if |actions| > 0 {
      ReduceKeepsConsistent(s, actions[0]);
      AlwaysConsistent(Reduce(s, actions[0]), actions[1..]);
    }
  }
}

=== FILE: convergence.dfy ===
/** What the offline repository achieves end to end: façade calls made
    while no remote write gets through, followed by one drain in which every
    remote call is accepted, leave the signed-in user's remote documents
    mirroring the local task table and the pending-change table empty. The
    argument holds only under two conditions, and the lemmas at the end show
    each one is needed: the clock must strictly increase between queued
    changes, and an update must not carry a description or due date key that
    holds `undefined`. */
module Convergence {
  import opened Js
  import opened Realm
  import opened Firestore
  import opened PendingQueue
  import opened OfflineRepo

  /** User `u`'s remote documents are exactly the local tasks, each holding
      the task's four client fields. */
  ghost predicate InSync(local: TaskTable, remote: Remote, u: string) {
    && (forall id :: id in local ==>
          DocPath(u, id) in remote && remote[DocPath(u, id)].fields == Mirror(local[id]))
    && (forall p :: p in remote && p.uid == u ==> p.taskId in local)
  }

  /** Every remote call accepted. */
  function AllOk(n: nat): (net: seq<bool>)
    ensures |net| == n && forall i :: 0 <= i < n ==> net[i]
  {
    seq(n, _ => true)
  }

  /** The pending-change table, replayed in order for user `u` with every
      call accepted, gets through every row and brings the remote store in
      line with the local table. */
  ghost predicate Replayable(s: Repo, u: string) {
    && u != ""
    && StrictlyTimed(s.queue)
    && UniqueIds(s.queue)
    && (forall e :: e in s.queue && e.op == Add ==> e.payload.Encoded?)
    && var rp := Replay(s.local, s.remote, NonNull(u), s.queue, AllOk(|s.queue|));
       rp.done == |s.queue| && InSync(s.local, rp.remote, u)
  }

  /** Replaying one more item after a complete replay is one more step. */
  lemma {:induction false} ReplayAppend(local: TaskTable, remote: Remote, user: Nullable<string>,
                                        items: seq<PendingChange>, net: seq<bool>, e: PendingChange, b: bool)
    requires |net| == |items|
    requires Replay(local, remote, user, items, net).done == |items|
    ensures var rp := Replay(local, remote, user, items, net);
      Replay(local, remote, user, items + [e], net + [b]) ==
        match ReplayEntry(local, rp.remote, user, e, b)
        case Halted => Replayed(rp.remote, |items|)
        case Dequeued(next) => Replayed(next, |items| + 1)
    decreases |items|
  {
    if |items| == 0 {
      assert items + [e] == [e] && net + [b] == [b];
    } else {
      assert (items + [e])[1..] == items[1..] + [e];
      assert (net + [b])[1..] == net[1..] + [b];
      match ReplayEntry(local, remote, user, items[0], net[0])
      case Halted =>
        assert false;
      case Dequeued(next) =>
        ReplayAppend(local, next, user, items[1..], net[1..], e, b);
    }
  }

  /** The local table matters to a replay only through `add` rows without a
      payload. */
  lemma {:induction false} ReplayIgnoresLocal(l1: TaskTable, l2: TaskTable, remote: Remote, user: Nullable<string>,
                                              items: seq<PendingChange>, net: seq<bool>)
    requires |net| == |items|
    requires forall e :: e in items && e.op == Add ==> e.payload.Encoded?
    ensures Replay(l1, remote, user, items, net) == Replay(l2, remote, user, items, net)
    decreases |items|
  {
    if |items| > 0 {
      assert ReplayEntry(l1, remote, user, items[0], net[0]) == ReplayEntry(l2, remote, user, items[0], net[0]);
      match ReplayEntry(l1, remote, user, items[0], net[0])
      case Halted =>
      case Dequeued(next) =>
        assert forall e :: e in items[1..] ==> e in items;
        ReplayIgnoresLocal(l1, l2, next, user, items[1..], net[1..]);
    }
  }

  /** Appending a row to a replayable table: the new table replays to the
      old result followed by the new row's step. */
  lemma ExtendReplay(s: Repo, local: TaskTable, u: string, e: PendingChange)
    requires Replayable(s, u)
    requires e.op == Add ==> e.payload.Encoded?
    ensures var rp := Replay(s.local, s.remote, NonNull(u), s.queue, AllOk(|s.queue|));
      Replay(local, s.remote, NonNull(u), s.queue + [e], AllOk(|s.queue| + 1)) ==
        match ReplayEntry(local, rp.remote, NonNull(u), e, true)
        case Halted => Replayed(rp.remote, |s.queue|)
        case Dequeued(next) => Replayed(next, |s.queue| + 1)
  {
    var n := |s.queue|;
    assert AllOk(n + 1) == AllOk(n) + [true];
    ReplayIgnoresLocal(local, s.local, s.remote, NonNull(u), s.queue, AllOk(n));
    ReplayAppend(local, s.remote, NonNull(u), s.queue, AllOk(n), e, true);
  }

  /** Appending a later row under a fresh key to a replayable table keeps
      it replayable, as long as replaying that row after the rest brings the
      remote store in line with the new local table. */
  lemma AppendKeepsReplayable(s: Repo, t: Repo, u: string, e: PendingChange, next: Remote)
    requires Replayable(s, u)
    requires t.queue == s.queue + [e] && t.remote == s.remote
    requires e.id !in Ids(s.queue)
    requires forall x :: x in s.queue ==> x.timestamp < e.timestamp
    requires e.op == Add ==> e.payload.Encoded?
    ensures && ReplayEntry(t.local, Replay(s.local, s.remote, NonNull(u), s.queue, AllOk(|s.queue|)).remote,
                           NonNull(u), e, true) == Dequeued(next)
            && InSync(t.local, next, u)
            ==> Replayable(t, u)
  {
    AppendLaterKeepsStrictlyTimed(s.queue, e);
    AppendFreshKeepsUniqueIds(s.queue, e);
    ExtendReplay(s, t.local, u, e);
  }

  /** Writing one task on both sides keeps them in sync. */
  lemma InSyncPut(local: TaskTable, remote: Remote, u: string, id: string, rec: TaskR, owner: string)
    requires InSync(local, remote, u)
    ensures InSync(local[id := rec], remote[DocPath(u, id) := Doc(Mirror(rec), owner)], u)
  {
  }

  /** Deleting one task on both sides keeps them in sync. */
  lemma InSyncRemove(local: TaskTable, remote: Remote, u: string, id: string)
    requires InSync(local, remote, u)
    ensures InSync(local - {id}, remote - {DocPath(u, id)}, u)
  {
  }

  /** An `add` made while no remote write gets through keeps the table
      replayable, and queues only a row with the given key and stamp. */
  lemma OfflineAddKeepsReplayable(s: Repo, u: string, input: AddInput, authUser: Nullable<string>, ok: bool,
                                  generatedId: string, changeId: string, nowIso: Iso, nowMs: int)
    requires Replayable(s, u)
    requires !(CurrentUserId(authUser).NonNull? && ok)
    requires changeId !in Ids(s.queue)
    requires forall e :: e in s.queue ==> e.timestamp < nowMs
    ensures var r := RepoAddTask(s, input, authUser, ok, generatedId, changeId, nowIso, nowMs);
      && r.result.Ok? && Replayable(r.repo, u)
      && forall e :: e in r.repo.queue ==> e in s.queue || (e.id == changeId && e.timestamp == nowMs)
  {
    var t := RepoAddTask(s, input, authUser, ok, generatedId, changeId, nowIso, nowMs).repo;
    var id := NewTaskId(input, generatedId);
    var e := PendingChange(changeId, Add, id, Encoded(Mirror(t.local[id])), nowMs);
    var before := Replay(s.local, s.remote, NonNull(u), s.queue, AllOk(|s.queue|)).remote;
    var next := before[DocPath(u, id) := Doc(Mirror(t.local[id]), u)];
    assert ReplayEntry(t.local, before, NonNull(u), e, true) == Dequeued(next);
    assert t.local == s.local[id := t.local[id]];
    InSyncPut(s.local, before, u, id, t.local[id], u);
    AppendKeepsReplayable(s, t, u, e, next);
  }

  /** The remote merge of what `repoUpdateTask` sends equals its local
      write, as long as neither the description nor the due date key holds
      `undefined`. */
  lemma UpdateAgrees(t: TaskR, updates: UpdateInput, now: Iso)
    requires !updates.description.Undefined? && !updates.dueDate.Undefined?
    ensures Merge(Mirror(t), Written(RemotePatch(updates))) == Mirror(LocalUpdate(t, updates, now))
  {
  }

  /** Replaying a queued `update` after a replay that left the stores in
      sync brings the remote store in line with the updated local table. */
  lemma UpdateEntrySyncs(local: TaskTable, before: Remote, u: string, id: string, updates: UpdateInput,
                         nowIso: Iso, e: PendingChange)
    requires u != "" && InSync(local, before, u) && id in local
    requires e.op == Update && e.taskId == id && e.payload == Encoded(RemotePatch(updates))
    requires !updates.description.Undefined? && !updates.dueDate.Undefined?
    ensures var l2 := local[id := LocalUpdate(local[id], updates, nowIso)];
      var p := DocPath(u, id);
      var next := before[p := Doc(Mirror(l2[id]), before[p].userId)];
      ReplayEntry(l2, before, NonNull(u), e, true) == Dequeued(next) && InSync(l2, next, u)
  {
    var rec := LocalUpdate(local[id], updates, nowIso);
    UpdateAgrees(local[id], updates, nowIso);
    InSyncPut(local, before, u, id, rec, before[DocPath(u, id)].userId);
  }

  /** An `update` made while no remote write gets through keeps the table
      replayable, as long as it carries no `undefined` description or due date. */
  lemma OfflineUpdateKeepsReplayable(s: Repo, u: string, id: string, updates: UpdateInput, authUser: Nullable<string>,
                                     ok: bool, changeId: string, nowIso: Iso, nowMs: int)
    requires Replayable(s, u)
    requires !(CurrentUserId(authUser).NonNull? && ok)
    requires changeId !in Ids(s.queue)
    requires forall e :: e in s.queue ==> e.timestamp < nowMs
    requires !updates.description.Undefined? && !updates.dueDate.Undefined?
    ensures var r := RepoUpdateTask(s, id, updates, authUser, ok, changeId, nowIso, nowMs);
      && (id in s.local ==> r.result.Ok?) && Replayable(r.repo, u)
      && forall e :: e in r.repo.queue ==> e in s.queue || (e.id == changeId && e.timestamp == nowMs)
  {
    if id in s.local {
      var t := RepoUpdateTask(s, id, updates, authUser, ok, changeId, nowIso, nowMs).repo;
      var e := PendingChange(changeId, Update, id, Encoded(RemotePatch(updates)), nowMs);
      assert t.queue == s.queue + [e] && t.remote == s.remote;
      assert t.local == s.local[id := LocalUpdate(s.local[id], updates, nowIso)];
      var before := Replay(s.local, s.remote, NonNull(u), s.queue, AllOk(|s.queue|)).remote;
      UpdateEntrySyncs(s.local, before, u, id, updates, nowIso, e);
      var p := DocPath(u, id);
      AppendKeepsReplayable(s, t, u, e, before[p := Doc(Mirror(t.local[id]), before[p].userId)]);
    }
  }

  /** A `delete` made while no remote write gets through keeps the table
      replayable. */
  lemma OfflineDeleteKeepsReplayable(s: Repo, u: string, id: string, authUser: Nullable<string>, ok: bool,
                                     changeId: string, nowMs: int)
    requires Replayable(s, u)
    requires !(CurrentUserId(authUser).NonNull? && ok)
    requires changeId !in Ids(s.queue)
    requires forall e :: e in s.queue ==> e.timestamp < nowMs
    ensures var r := RepoDeleteTask(s, id, authUser, ok, changeId, nowMs);
      && r.result.Ok? && Replayable(r.repo, u)
      && forall e :: e in r.repo.queue ==> e in s.queue || (e.id == changeId && e.timestamp == nowMs)
  {
    var t := RepoDeleteTask(s, id, authUser, ok, changeId, nowMs).repo;
    var e := PendingChange(changeId, Delete, id, NoPayload, nowMs);
    var before := Replay(s.local, s.remote, NonNull(u), s.queue, AllOk(|s.queue|)).remote;
    var next := before - {DocPath(u, id)};
    assert ReplayEntry(t.local, before, NonNull(u), e, true) == Dequeued(next);
    assert t.local == s.local - {id};
    InSyncRemove(s.local, before, u, id);
    AppendKeepsReplayable(s, t, u, e, next);
  }

  /** A drain of a replayable table in which every call is accepted empties
      the table and leaves the remote store mirroring the local one. */
  lemma DrainConverges(s: Repo, u: string, snapshot: seq<PendingChange>)
    requires Replayable(s, u)
    requires IsSortedSnapshot(snapshot, s.queue)
    ensures var r := ProcessQueue(s, snapshot, NonNull(u), AllOk(|snapshot|));
      && r.done == |s.queue| && r.repo.queue == []
      && InSync(r.repo.local, r.repo.remote, u)
  {
    StrictlyTimedSnapshotIsUnique(snapshot, s.queue);
    assert snapshot[..|s.queue|] == s.queue;
  }

  /** A façade call made with no user signed in. */
  datatype OfflineCall =
    | AddCall(input: AddInput, generatedId: string, changeId: string, nowIso: Iso, nowMs: int)
    | UpdateCall(id: string, updates: UpdateInput, changeId: string, nowIso: Iso, nowMs: int)
    | DeleteCall(id: string, changeId: string, nowMs: int)

  function ApplyOffline(s: Repo, c: OfflineCall): Repo {
    match c
    case AddCall(input, gid, cid, iso, ms) => RepoAddTask(s, input, Null, false, gid, cid, iso, ms).repo
    case UpdateCall(id, updates, cid, iso, ms) => RepoUpdateTask(s, id, updates, Null, false, cid, iso, ms).repo
    case DeleteCall(id, cid, ms) => RepoDeleteTask(s, id, Null, false, cid, ms).repo
  }

  /** The repository after a sequence of offline façade calls. */
  function RunOffline(s: Repo, calls: seq<OfflineCall>): Repo
    decreases |calls|
  {
    if |calls| == 0 then s else RunOffline(ApplyOffline(s, calls[0]), calls[1..])
  }

  /** The calls use fresh change ids, a clock that moves strictly forward
      past every queued row, and no `undefined` description or due date. */
  ghost predicate CallsFit(q: seq<PendingChange>, calls: seq<OfflineCall>) {
    && (forall i :: 0 <= i < |calls| ==> calls[i].changeId !in Ids(q))
    && (forall i, e :: 0 <= i < |calls| && e in q ==> e.timestamp < calls[i].nowMs)
    && (forall i, j :: 0 <= i < j < |calls| ==>
          calls[i].changeId != calls[j].changeId && calls[i].nowMs < calls[j].nowMs)
    && (forall i :: 0 <= i < |calls| && calls[i].UpdateCall? ==>
          !calls[i].updates.description.Undefined? && !calls[i].updates.dueDate.Undefined?)
  }

  /** One offline call that fits keeps the table replayable, and adds at
      most a row with its own key and stamp. */
  lemma ApplyOfflineKeepsReplayable(s: Repo, u: string, c: OfflineCall)
    requires Replayable(s, u)
    requires c.changeId !in Ids(s.queue)
    requires forall e :: e in s.queue ==> e.timestamp < c.nowMs
    requires c.UpdateCall? ==> !c.updates.description.Undefined? && !c.updates.dueDate.Undefined?
    ensures var t := ApplyOffline(s, c);
      && Replayable(t, u)
      && forall e :: e in t.queue ==> e in s.queue || (e.id == c.changeId && e.timestamp == c.nowMs)
  {
    match c
    case AddCall(input, gid, cid, iso, ms) =>
      OfflineAddKeepsReplayable(s, u, input, Null, false, gid, cid, iso, ms);
    case UpdateCall(id, updates, cid, iso, ms) =>
      OfflineUpdateKeepsReplayable(s, u, id, updates, Null, false, cid, iso, ms);
    case DeleteCall(id, cid, ms) =>
      OfflineDeleteKeepsReplayable(s, u, id, Null, false, cid, ms);
  }

  /** The calls after the first still fit the table the first one leaves. */
  lemma CallsFitTail(q: seq<PendingChange>, t: seq<PendingChange>, calls: seq<OfflineCall>)
    requires |calls| > 0 && CallsFit(q, calls)
    requires forall e :: e in t ==> e in q || (e.id == calls[0].changeId && e.timestamp == calls[0].nowMs)
    ensures CallsFit(t, calls[1..])
  {
    var rest := calls[1..];
    forall i | 0 <= i < |rest| ensures rest[i].changeId !in Ids(t) {
      assert rest[i] == calls[i + 1];
      assert calls[0].changeId != calls[i + 1].changeId;
    }
    forall i, e | 0 <= i < |rest| && e in t ensures e.timestamp < rest[i].nowMs {
      assert rest[i] == calls[i + 1];
      assert calls[0].nowMs < calls[i + 1].nowMs;
    }
    forall i, j | 0 <= i < j < |rest|
      ensures rest[i].changeId != rest[j].changeId && rest[i].nowMs < rest[j].nowMs
    {
      assert rest[i] == calls[i + 1] && rest[j] == calls[j + 1];
    }
    forall i | 0 <= i < |rest| && rest[i].UpdateCall?
      ensures !rest[i].updates.description.Undefined? && !rest[i].updates.dueDate.Undefined?
    {
      assert rest[i] == calls[i + 1];
    }
  }

  /** Any sequence of fitting offline calls keeps the table replayable. */
  lemma {:induction false} RunOfflineKeepsReplayable(s: Repo, u: string, calls: seq<OfflineCall>)
    requires Replayable(s, u)
    requires CallsFit(s.queue, calls)
    ensures Replayable(RunOffline(s, calls), u)
    decreases |calls|
  {
    if |calls| > 0 {
      var t := ApplyOffline(s, calls[0]);
      ApplyOfflineKeepsReplayable(s, u, calls[0]);
      CallsFitTail(s.queue, t.queue, calls);
      RunOfflineKeepsReplayable(t, u, calls[1..]);
    }
  }

  /** Convergence: starting in sync with an empty table, any sequence of
      offline façade calls that fits the clock and id conditions, followed
      by a drain for user `u` in which every call is accepted, leaves the
      table empty and `u`'s remote documents mirroring the local tasks. */
  lemma OfflineSessionConverges(s: Repo, u: string, calls: seq<OfflineCall>, snapshot: seq<PendingChange>)
    requires u != "" && s.queue == [] && InSync(s.local, s.remote, u)
    requires CallsFit(s.queue, calls)
    requires IsSortedSnapshot(snapshot, RunOffline(s, calls).queue)
    ensures var r := ProcessQueue(RunOffline(s, calls), snapshot, NonNull(u), AllOk(|snapshot|));
      r.repo.queue == [] && InSync(r.repo.local, r.repo.remote, u)
  {
    assert Replayable(s, u);
    RunOfflineKeepsReplayable(s, u, calls);
    DrainConverges(RunOffline(s, calls), u, snapshot);
  }

  // ---------------------------------------------------------------------
  // Why each condition is needed, and what the drain does on failure

  const SomeDay: Iso := "2024-01-01T00:00:00.000Z"

  /** A task "t" with description "x", stored locally and remotely for "u". */
  function SyncedTask(): TaskR {
    TaskR("t", "title", NonNull("x"), false, Null, SomeDay, SomeDay, "u")
  }

  /** Two rows stamped in the same millisecond: an `add` then a `delete` of
      the same task. Both orders are sorted snapshots, and a fully accepted
      drain leaves the document in place in one order and removes it in the
      other. */
  lemma TiedTimestampsMayReorder()
    ensures var a := PendingChange("c1", Add, "t", Encoded(Mirror(SyncedTask())), 5);
      var d := PendingChange("c2", Delete, "t", NoPayload, 5);
      var s := Repo(map[], [a, d], map[]);
      && IsSortedSnapshot([a, d], s.queue) && IsSortedSnapshot([d, a], s.queue)
      && ProcessQueue(s, [a, d], NonNull("u"), [true, true]).repo.remote == map[]
      && DocPath("u", "t") in ProcessQueue(s, [d, a], NonNull("u"), [true, true]).repo.remote
  {
    var a := PendingChange("c1", Add, "t", Encoded(Mirror(SyncedTask())), 5);
    var d := PendingChange("c2", Delete, "t", NoPayload, 5);
    var ad: seq<PendingChange>, da: seq<PendingChange> := [a, d], [d, a];
    assert multiset(ad) == multiset(da);
    var u, p := NonNull("u"), DocPath("u", "t");
    var created := map[p := Doc(Mirror(SyncedTask()), "u")];
    assert ReplayEntry(map[], map[], u, a, true) == Dequeued(created);
    assert ReplayEntry(map[], created, u, d, true) == Dequeued(map[]);
    assert ReplayEntry(map[], map[], u, d, true) == Dequeued(map[]);
    assert ReplayEntry(map[], map[], u, a, true) == Dequeued(created);
    assert Replay(map[], created, u, [d], [true]).remote == map[];
    assert Replay(map[], map[], u, ad, [true, true]).remote == map[];
    assert Replay(map[], map[], u, [a], [true]).remote == created;
    assert Replay(map[], map[], u, da, [true, true]).remote == created;
  }

  /** An update whose description key holds `undefined` keeps the local
      description and clears the remote one. */
  lemma ClearedDescriptionDiverges()
    ensures var s := Repo(map["t" := SyncedTask()], [], map[DocPath("u", "t") := Doc(Mirror(SyncedTask()), "u")]);
      var updates := UpdateInput(Absent, Undefined, Absent, Absent);
      var r := RepoUpdateTask(s, "t", updates, NonNull("u"), true, "c1", SomeDay, 7);
      && r.result.Ok?
      && r.repo.local["t"].description == NonNull("x")
      && r.repo.remote[DocPath("u", "t")].fields.description == Has(Null)
  {
  }

  /** An `add` row whose remote create is rejected is deleted all the same,
      and the task never reaches the remote store. */
  lemma FailedAddIsDequeued()
    ensures var a := PendingChange("c1", Add, "t", Encoded(Mirror(SyncedTask())), 5);
      var s := Repo(map["t" := SyncedTask()], [a], map[]);
      var r := ProcessQueue(s, [a], NonNull("u"), [false]);
      && r.done == 1 && r.repo.queue == [] && r.repo.remote == map[]
  {
    var a := PendingChange("c1", Add, "t", Encoded(Mirror(SyncedTask())), 5);
    assert [a][..1] == [a];
  }

  /** An `update` row for a document the remote store does not have stops
      the drain even when every call is accepted, and every later row waits
      behind it. */
  lemma UpdateOfMissingDocumentStalls()
    ensures var up := PendingChange("c1", Update, "t", Encoded(EmptyPatch.(title := Has("new"))), 5);
      var del := PendingChange("c2", Delete, "t", NoPayload, 6);
      var s := Repo(map[], [up, del], map[]);
      var r := ProcessQueue(s, [up, del], NonNull("u"), [true, true]);
      && r.done == 0 && r.repo.queue == [up, del] && r.repo.remote == map[]
  {
    var up := PendingChange("c1", Update, "t", Encoded(EmptyPatch.(title := Has("new"))), 5);
    var del := PendingChange("c2", Delete, "t", NoPayload, 6);
    var u := NonNull("u");
    assert ReplayEntry(map[], map[], u, up, true) == Halted;
    assert Replay(map[], map[], u, [up, del], [true, true]) == Replayed(map[], 0);
    assert [up, del][..0] == [];
    assert Ids([]) == {};
  }
}

=== FILE: firestore.dfy ===
/** The remote task store as the offline repository sees it through
    src/firebase/config.ts: one document per (user, task id), written by
    create-with-id, partial update and delete. Whether the network and the
    server accept a call is not visible here; it arrives as the oracle
    argument `ok`. */
module Firestore {
  import opened Js
  import opened Realm

  /** The document `users/{uid}/tasks/{taskId}`. */
  datatype DocPath = DocPath(uid: string, taskId: string)

  /** A stored document: the client-supplied fields and the owner stamp.
      The server timestamps `createdAt`/`updatedAt` are not modelled. */
  datatype Doc = Doc(fields: Patch, userId: string)

  type Remote = map<DocPath, Doc>

  /** What a remote helper returns: the store afterwards, and whether the
      call reported success (`error` is `null`). */
  datatype Response = Response(remote: Remote, succeeded: bool)

  /** getCurrentUserId: the signed-in user's id, an empty id counting as none. */
  function CurrentUserId(authUser: Nullable<string>): (r: Nullable<string>)
    ensures r.NonNull? <==> authUser.NonNull? && authUser.value != ""
    ensures r.NonNull? ==> r == authUser
  {
    if authUser.NonNull? && authUser.value != "" then authUser else Null
  }

  /** A property holding `undefined` is not stored: such a key is dropped.
      This is an assumption about the remote store, not something
      src/firebase/config.ts does. */
  function Written(p: Patch): (w: Patch)
    ensures w.title == (if p.title.Undefined? then Absent else p.title)
    ensures w.description == (if p.description.Undefined? then Absent else p.description)
    ensures w.isCompleted == (if p.isCompleted.Undefined? then Absent else p.isCompleted)
    ensures w.dueDate == (if p.dueDate.Undefined? then Absent else p.dueDate)
  {
    Patch(
      if p.title.Undefined? then Absent else p.title,
      if p.description.Undefined? then Absent else p.description,
      if p.isCompleted.Undefined? then Absent else p.isCompleted,
      if p.dueDate.Undefined? then Absent else p.dueDate)
  }

  /** One field of a document after a partial update: a supplied value wins. */
  function MergeField<T>(prev: Prop<T>, upd: Prop<T>): Prop<T> {
    if upd.Has? then upd else prev
  }

  /** The fields of a document after a partial update with `upd`. */
  function Merge(prev: Patch, upd: Patch): (m: Patch)
    ensures upd.title.Has? ==> m.title == upd.title
    ensures !upd.title.Has? ==> m.title == prev.title
    ensures upd.description.Has? ==> m.description == upd.description
    ensures !upd.description.Has? ==> m.description == prev.description
    ensures upd.isCompleted.Has? ==> m.isCompleted == upd.isCompleted
    ensures !upd.isCompleted.Has? ==> m.isCompleted == prev.isCompleted
    ensures upd.dueDate.Has? ==> m.dueDate == upd.dueDate
    ensures !upd.dueDate.Has? ==> m.dueDate == prev.dueDate
  {
    Patch(MergeField(prev.title, upd.title), MergeField(prev.description, upd.description),
          MergeField(prev.isCompleted, upd.isCompleted), MergeField(prev.dueDate, upd.dueDate))
  }

  /** addTaskWithId: with a signed-in user and an accepted call, the
      document is overwritten with the given fields and stamped with the
      user's id; otherwise nothing is written and an error is reported. */
  function AddTaskWithId(remote: Remote, authUser: Nullable<string>, taskId: string, data: Patch, ok: bool): (r: Response)
    ensures r.succeeded <==> authUser.NonNull? && ok
    ensures !r.succeeded ==> r.remote == remote
    ensures r.succeeded ==> var p := DocPath(authUser.value, taskId);
      && r.remote.Keys == remote.Keys + {p}
      && r.remote[p] == Doc(Written(data), authUser.value)
      && forall q :: q in remote && q != p ==> r.remote[q] == remote[q]
  {
    if authUser.Null? || !ok then Response(remote, false)
    else
      var p := DocPath(authUser.value, taskId);
      Response(remote[p := Doc(Written(data), authUser.value)], true)
  }

  /** updateTask: a partial update of an existing document. A missing
      document is an error, as is a missing user or a rejected call. */
  function UpdateTask(remote: Remote, authUser: Nullable<string>, taskId: string, updates: Patch, ok: bool): (r: Response)
    ensures r.succeeded <==> authUser.NonNull? && ok && DocPath(authUser.value, taskId) in remote
    ensures !r.succeeded ==> r.remote == remote
    ensures r.succeeded ==> var p := DocPath(authUser.value, taskId);
      && r.remote.Keys == remote.Keys
      && r.remote[p] == Doc(Merge(remote[p].fields, Written(updates)), remote[p].userId)
      && forall q :: q in remote && q != p ==> r.remote[q] == remote[q]
  {
    if authUser.Null? || !ok then Response(remote, false)
    else
      var p := DocPath(authUser.value, taskId);
      if p !in remote then Response(remote, false)
      else Response(remote[p := Doc(Merge(remote[p].fields, Written(updates)), remote[p].userId)], true)
  }

  /** deleteTask: deleting a missing document is not an error. */
  function DeleteTask(remote: Remote, authUser: Nullable<string>, taskId: string, ok: bool): (r: Response)
    ensures r.succeeded <==> authUser.NonNull? && ok
    ensures !r.succeeded ==> r.remote == remote
    ensures r.succeeded ==> r.remote.Keys == remote.Keys - {DocPath(authUser.value, taskId)}
    ensures forall q :: q in r.remote ==> q in remote && r.remote[q] == remote[q]
  {
    if authUser.Null? || !ok then Response(remote, false)
    else Response(remote - {DocPath(authUser.value, taskId)}, true)
  }

  /** No remote call touches another user's documents. */
  ghost predicate OthersUntouched(before: Remote, after: Remote, authUser: Nullable<string>) {
    forall q: DocPath :: (authUser.Null? || q.uid != authUser.value) ==>
      (q in after <==> q in before) && (q in after ==> after[q] == before[q])
  }
}

=== FILE: js.dfy ===
/** JavaScript value shapes shared by the whole model: nullable values,
    object properties that may be missing or hold `undefined`, and the
    result of an operation that can throw. */
module Js {

  /** A value of TypeScript type `T | null`. */
  datatype Nullable<+T> = Null | NonNull(value: T)

  /** One property of a JavaScript object: the key is missing, the key is
      present and holds `undefined`, or the key holds a value. */
  datatype Prop<+T> = Absent | Undefined | Has(value: T)

  /** The outcome of a call that either returns or throws. */
  datatype Result<+T, +E> = Ok(value: T) | Err(error: E)

  /** `'key' in obj` */
  predicate InObject<T>(p: Prop<T>) {
    !p.Absent?
  }

  /** `obj.key !== undefined` */
  predicate Defined<T>(p: Prop<T>) {
    p.Has?
  }

  /** `!!obj.key` for a boolean property. */
  function Truthy(p: Prop<bool>): (b: bool)
    ensures b <==> p == Has(true)
  {
    p.Has? && p.value
  }

  /** `obj.key ?? null` for a property whose value may itself be `null`. */
  function OrNull<T>(p: Prop<Nullable<T>>): (r: Nullable<T>)
    ensures r.NonNull? <==> p.Has? && p.value.NonNull?
    ensures r.NonNull? ==> r == p.value
  {
    if p.Has? then p.value else Null
  }

  /** A property typed `T` read as one typed `T | null` (no value changes). */
  function Widen<T>(p: Prop<T>): (r: Prop<Nullable<T>>)
    ensures r.Absent? <==> p.Absent?
    ensures r.Undefined? <==> p.Undefined?
    ensures r.Has? ==> p.Has? && r.value == NonNull(p.value)
  {
    match p
    case Absent => Absent
    case Undefined => Undefined
    case Has(v) => Has(NonNull(v))
  }
}

=== FILE: offline_repo.dfy ===
/** The offline repository (src/storage/offlineRepo.ts): optimistic local
    writes, best-effort remote writes that fall back to the pending-change
    table, and the drain that replays that table against the remote store.

    Time, fresh ids, the signed-in user and the outcome of every remote call
    are arguments: `nowIso`/`nowMs` stand for `new Date().toISOString()` and
    `Date.now()`, `generatedId`/`changeId` for `genId()`, `authUser` for the
    Firebase session, and `ok`/`net` for whether the network and the server
    accept a call. */
module OfflineRepo {
  import opened Js
  import opened Realm
  import opened Firestore
  import opened PendingQueue

  /** Everything the repository reads or writes: the local task table, the
      pending-change table, and the remote store. */
  datatype Repo = Repo(local: TaskTable, queue: seq<PendingChange>, remote: Remote)

  /** Failures of the local database; they propagate to the caller. */
  datatype LocalError =
    | DuplicatePrimaryKey      // a row with that primary key already exists
    | MissingRequiredProperty  // an upsert of a new row lacked required columns

  /** How a façade call ends: the state it leaves, and its value or the
      error it throws. */
  datatype Done<T> = Done(repo: Repo, result: Result<T, LocalError>)

  // ---------------------------------------------------------------------
  // Local store

  /** saveTaskLocal: upsert of the normalised record under its id. */
  function SaveTaskLocal(local: TaskTable, task: TaskObject): (r: TaskTable)
    ensures task.id in r && r[task.id] == ToTaskR(task)
    ensures r.Keys == local.Keys + {task.id}
    ensures forall k :: k in local && k != task.id ==> r[k] == local[k]
    ensures KeyedById(local) ==> KeyedById(r)
  {
    local[task.id := ToTaskR(task)]
  }

  /** deleteTaskLocal: removes the row if present; a missing row is no error. */
  function DeleteTaskLocal(local: TaskTable, taskId: string): (r: TaskTable)
    ensures r.Keys == local.Keys - {taskId}
    ensures forall k :: k in r ==> r[k] == local[k]
    ensures taskId !in local ==> r == local
    ensures KeyedById(local) ==> KeyedById(r)
  {
    local - {taskId}
  }

  /** getAllTasksLocal: every stored task as an object, in no particular order. */
  function GetAllTasksLocal(local: TaskTable): (r: set<TaskObject>)
    requires KeyedById(local)
    ensures forall t :: t in r ==> t.id in local && ToTaskR(t) == local[t.id]
    ensures forall k :: k in local ==> exists t :: t in r && t.id == k
    ensures forall a, b :: a in r && b in r && a.id == b.id ==> a == b
  {
    var r := set k | k in local :: ReadTask(local[k]);
    assert forall k :: k in local ==> ReadTask(local[k]) in r;
    r
  }

  // ---------------------------------------------------------------------
  // Pending changes

  /** The `payload` column written for an optional payload object. */
  function Encode(payload: Nullable<Patch>): StoredPayload {
    if payload.NonNull? then Encoded(payload.value) else NoPayload
  }

  /** queueChange: inserts one row stamped `now`; an id already in the table
      is rejected by the database. */
  function QueueChange(queue: seq<PendingChange>, op: PendingOp, taskId: string, payload: Nullable<Patch>,
                       changeId: string, now: int): (r: Result<seq<PendingChange>, LocalError>)
    ensures r.Err? <==> changeId in Ids(queue)
    ensures r.Err? ==> r.error == DuplicatePrimaryKey
    ensures r.Ok? ==> |r.value| == |queue| + 1 && r.value[..|queue|] == queue
    ensures r.Ok? ==> var e := r.value[|queue|];
      && e.id == changeId && e.op == op && e.taskId == taskId && e.timestamp == now
      && (e.payload == NoPayload <==> payload.Null?)
      && (payload.NonNull? ==> e.payload == Encoded(payload.value))
    ensures r.Ok? && UniqueIds(queue) ==> UniqueIds(r.value)
  {
    if changeId in Ids(queue) then Err(DuplicatePrimaryKey)
    else
      var e := PendingChange(changeId, op, taskId, Encode(payload), now);
      assert UniqueIds(queue) ==> UniqueIds(queue + [e]) by {
        if UniqueIds(queue) { AppendFreshKeepsUniqueIds(queue, e); }
      }
      assert (queue + [e])[..|queue|] == queue;
      Ok(queue + [e])
  }

  /** The four client fields of a stored task as a patch naming all of them. */
  function Mirror(t: TaskR): (p: Patch)
    ensures Written(p) == p
    ensures p.title.Has? && p.description.Has? && p.isCompleted.Has? && p.dueDate.Has?
  {
    Patch(Has(t.title), Has(t.description), Has(t.isCompleted), Has(t.dueDate))
  }

  // ---------------------------------------------------------------------
  // Façade

  /** The argument of `repoAddTask`. */
  datatype AddInput = AddInput(
    id: Prop<string>,
    title: string,
    description: Prop<string>,
    dueDate: Prop<Nullable<Iso>>,
    isCompleted: Prop<bool>,
    userId: string)

  /** `input.id || genId()`: an empty id counts as none. */
  function NewTaskId(input: AddInput, generatedId: string): (id: string)
    ensures input.id.Has? && input.id.value != "" ==> id == input.id.value
    ensures !(input.id.Has? && input.id.value != "") ==> id == generatedId
  {
    if input.id.Has? && input.id.value != "" then input.id.value else generatedId
  }

  /** The task object `repoAddTask` builds before saving it. */
  function NewTask(input: AddInput, id: string, now: Iso): TaskObject {
    TaskObject(
      id, input.title, Widen(input.description), Has(Truthy(input.isCompleted)),
      if input.dueDate.Has? && input.dueDate.value.NonNull? then input.dueDate else Undefined,
      now, now, input.userId)
  }

  /** The object sent to `addTaskWithId`, and queued when that is not possible. */
  function AddPayload(task: TaskObject): Patch {
    Patch(Has(task.title), Has(OrNull(task.description)), Has(Truthy(task.isCompleted)), Has(OrNull(task.dueDate)))
  }

  /** repoAddTask: saves the task locally, then creates it remotely when a
      user is signed in and the call is accepted, and otherwise queues an
      `add` change carrying the same fields. Returns the task id. */
  function RepoAddTask(s: Repo, input: AddInput, authUser: Nullable<string>, ok: bool,
                       generatedId: string, changeId: string, nowIso: Iso, nowMs: int): (r: Done<string>)
    ensures var id := NewTaskId(input, generatedId);
      && id in r.repo.local
      && r.repo.local.Keys == s.local.Keys + {id}
      && (forall k :: k in s.local && k != id ==> r.repo.local[k] == s.local[k])
      && var rec := r.repo.local[id];
      && rec.id == id && rec.title == input.title && rec.userId == input.userId
      && rec.createdAt == nowIso && rec.updatedAt == nowIso
      && rec.isCompleted == (input.isCompleted == Has(true))
      && rec.description == (if input.description.Has? then NonNull(input.description.value) else Null)
      && rec.dueDate == (if input.dueDate.Has? then input.dueDate.value else Null)
      && (r.result.Ok? ==> r.result.value == id)
      && (CurrentUserId(authUser).NonNull? && ok ==>
            && r.result.Ok? && r.repo.queue == s.queue
            && r.repo.remote == s.remote[DocPath(authUser.value, id) := Doc(Mirror(rec), authUser.value)])
      && (!(CurrentUserId(authUser).NonNull? && ok) ==>
            && r.repo.remote == s.remote
            && (r.result.Err? <==> changeId in Ids(s.queue))
            && (r.result.Err? ==> r.result.error == DuplicatePrimaryKey && r.repo.queue == s.queue)
            && (r.result.Ok? ==> r.repo.queue == s.queue + [PendingChange(changeId, Add, id, Encoded(Mirror(rec)), nowMs)]))
  {
    var id := NewTaskId(input, generatedId);
    var task := NewTask(input, id, nowIso);
    var local := SaveTaskLocal(s.local, task);
    var payload := AddPayload(task);
    assert payload == Mirror(local[id]);
    var sent := if CurrentUserId(authUser).NonNull? then AddTaskWithId(s.remote, authUser, id, payload, ok)
                else Response(s.remote, false);
    if sent.succeeded then Done(Repo(local, s.queue, sent.remote), Ok(id))
    else
      match QueueChange(s.queue, Add, id, NonNull(payload), changeId, nowMs)
      case Ok(q) =>
        assert q == s.queue + [PendingChange(changeId, Add, id, Encoded(payload), nowMs)];
        Done(Repo(local, q, s.remote), Ok(id))
      case Err(e) => Done(Repo(local, s.queue, s.remote), Err(e))
  }

  /** The argument of `repoUpdateTask`: each field missing, present but
      `undefined`, or present with a value. */
  datatype UpdateInput = UpdateInput(
    title: Prop<string>,
    description: Prop<string>,
    isCompleted: Prop<bool>,
    dueDate: Prop<Nullable<Iso>>)

  /** The local upsert of `repoUpdateTask`: each field whose value is not
      `undefined` is written, and `updatedAt` is refreshed. */
  function LocalUpdate(t: TaskR, u: UpdateInput, now: Iso): TaskR {
    t.(title := if Defined(u.title) then u.title.value else t.title,
       description := if Defined(u.description) then NonNull(u.description.value) else t.description,
       isCompleted := if Defined(u.isCompleted) then u.isCompleted.value else t.isCompleted,
       dueDate := if Defined(u.dueDate) then u.dueDate.value else t.dueDate,
       updatedAt := now)
  }

  /** The object `repoUpdateTask` sends remotely and queues: every key that
      is present in the input is sent, with a missing description or due
      date value replaced by `null`. */
  function RemotePatch(u: UpdateInput): (p: Patch)
    ensures InObject(p.title) <==> InObject(u.title)
    ensures InObject(p.description) <==> InObject(u.description)
    ensures InObject(p.isCompleted) <==> InObject(u.isCompleted)
    ensures InObject(p.dueDate) <==> InObject(u.dueDate)
    ensures p.title == u.title && p.isCompleted == u.isCompleted
    ensures !p.description.Undefined? && !p.dueDate.Undefined?
    ensures p.description.Has? ==> p.description.value == OrNull(Widen(u.description))
    ensures p.dueDate.Has? ==> p.dueDate.value == OrNull(u.dueDate)
  {
    Patch(
      u.title,
      if InObject(u.description) then Has(OrNull(Widen(u.description))) else Absent,
      u.isCompleted,
      if InObject(u.dueDate) then Has(OrNull(u.dueDate)) else Absent)
  }

  /** repoUpdateTask: writes the supplied fields locally, then updates the
      remote document, and queues an `update` change with the same object
      when that is not possible. A task missing locally makes the local
      upsert throw before anything else happens. */
  function RepoUpdateTask(s: Repo, id: string, updates: UpdateInput, authUser: Nullable<string>, ok: bool,
                          changeId: string, nowIso: Iso, nowMs: int): (r: Done<()>)
    ensures id !in s.local ==> r == Done(s, Err(MissingRequiredProperty))
    ensures id in s.local ==>
      && r.repo.local.Keys == s.local.Keys
      && (forall k :: k in s.local && k != id ==> r.repo.local[k] == s.local[k])
      && var prev, rec := s.local[id], r.repo.local[id];
      && rec.id == prev.id && rec.createdAt == prev.createdAt && rec.userId == prev.userId
      && rec.updatedAt == nowIso
      && rec.title == (if updates.title.Has? then updates.title.value else prev.title)
      && rec.description == (if updates.description.Has? then NonNull(updates.description.value) else prev.description)
      && rec.isCompleted == (if updates.isCompleted.Has? then updates.isCompleted.value else prev.isCompleted)
      && rec.dueDate == (if updates.dueDate.Has? then updates.dueDate.value else prev.dueDate)
    ensures id in s.local && authUser.NonNull? && CurrentUserId(authUser).NonNull? && ok && DocPath(authUser.value, id) in s.remote ==>
      var p := DocPath(authUser.value, id);
      && r.result.Ok? && r.repo.queue == s.queue
      && r.repo.remote == s.remote[p := Doc(Merge(s.remote[p].fields, Written(RemotePatch(updates))), s.remote[p].userId)]
    ensures id in s.local && !(authUser.NonNull? && CurrentUserId(authUser).NonNull? && ok && DocPath(authUser.value, id) in s.remote) ==>
      && r.repo.remote == s.remote
      && (r.result.Err? <==> changeId in Ids(s.queue))
      && (r.result.Err? ==> r.result.error == DuplicatePrimaryKey && r.repo.queue == s.queue)
      && (r.result.Ok? ==> r.repo.queue == s.queue + [PendingChange(changeId, Update, id, Encoded(RemotePatch(updates)), nowMs)])
  {
    if id !in s.local then Done(s, Err(MissingRequiredProperty))
    else
      var local := s.local[id := LocalUpdate(s.local[id], updates, nowIso)];
      var patch := RemotePatch(updates);
      var sent := if CurrentUserId(authUser).NonNull? then UpdateTask(s.remote, authUser, id, patch, ok)
                  else Response(s.remote, false);
      if sent.succeeded then Done(Repo(local, s.queue, sent.remote), Ok(()))
      else
        match QueueChange(s.queue, Update, id, NonNull(patch), changeId, nowMs)
        case Ok(q) =>
          assert q == s.queue + [PendingChange(changeId, Update, id, Encoded(patch), nowMs)];
          Done(Repo(local, q, s.remote), Ok(()))
        case Err(e) => Done(Repo(local, s.queue, s.remote), Err(e))
  }

  /** repoDeleteTask: deletes locally first, then remotely, and queues a
      `delete` change without payload when that is not possible. */
  function RepoDeleteTask(s: Repo, id: string, authUser: Nullable<string>, ok: bool,
                          changeId: string, nowMs: int): (r: Done<()>)
    ensures r.repo.local.Keys == s.local.Keys - {id}
    ensures forall k :: k in r.repo.local ==> r.repo.local[k] == s.local[k]
    ensures CurrentUserId(authUser).NonNull? && ok ==>
      && r.result.Ok? && r.repo.queue == s.queue
      && r.repo.remote == s.remote - {DocPath(authUser.value, id)}
    ensures !(CurrentUserId(authUser).NonNull? && ok) ==>
      && r.repo.remote == s.remote
      && (r.result.Err? <==> changeId in Ids(s.queue))
      && (r.result.Err? ==> r.result.error == DuplicatePrimaryKey && r.repo.queue == s.queue)
      && (r.result.Ok? ==> r.repo.queue == s.queue + [PendingChange(changeId, Delete, id, NoPayload, nowMs)])
  {
    var local := DeleteTaskLocal(s.local, id);
    var sent := if CurrentUserId(authUser).NonNull? then DeleteTask(s.remote, authUser, id, ok)
                else Response(s.remote, false);
    if sent.succeeded then Done(Repo(local, s.queue, sent.remote), Ok(()))
    else
      match QueueChange(s.queue, Delete, id, Null, changeId, nowMs)
      case Ok(q) =>
        assert q == s.queue + [PendingChange(changeId, Delete, id, NoPayload, nowMs)];
        Done(Repo(local, q, s.remote), Ok(()))
      case Err(e) => Done(Repo(local, s.queue, s.remote), Err(e))
  }

  // ---------------------------------------------------------------------
  // Drain

  /** Replaying one pending change either deletes its row, leaving the
      remote store as the call left it, or stops the drain. */
  datatype Step = Dequeued(remote: Remote) | Halted

  /** The object an `add` change creates: its payload, else the fields of
      the local task, else nothing. */
  function AddData(local: TaskTable, e: PendingChange): (d: Nullable<Patch>)
    ensures e.payload.Encoded? ==> d == NonNull(e.payload.patch)
    ensures !e.payload.Encoded? ==> (d.NonNull? <==> e.taskId in local)
    ensures !e.payload.Encoded? && e.taskId in local ==> d == NonNull(Mirror(local[e.taskId]))
  {
    if e.payload.Encoded? then NonNull(e.payload.patch)
    else if e.taskId in local then NonNull(Mirror(local[e.taskId]))
    else Null
  }

  /** One turn of the drain loop. A payload that does not parse stops it.
      An `add` is dequeued whatever `addTaskWithId` reports, and without any
      call when there is nothing to create; an `update` or `delete` that
      reports an error stops the drain. */
  function ReplayEntry(local: TaskTable, remote: Remote, authUser: Nullable<string>, e: PendingChange, ok: bool): (st: Step)
    ensures e.payload.Unparsable? ==> st.Halted?
    ensures e.op == Add && !e.payload.Unparsable? ==> st.Dequeued?
    ensures e.op == Add && !e.payload.Unparsable? && AddData(local, e).Null? ==> st == Dequeued(remote)
    ensures st.Halted? ==> e.payload.Unparsable? || e.op == Update || (e.op == Delete && !(authUser.NonNull? && ok))
    ensures e.op == Delete && !e.payload.Unparsable? && authUser.NonNull? && ok ==> st.Dequeued?
    ensures e.op == Add && !e.payload.Unparsable? && AddData(local, e).NonNull? ==>
      st == Dequeued(AddTaskWithId(remote, authUser, e.taskId, AddData(local, e).value, ok).remote)
    ensures e.op == Update && !e.payload.Unparsable? ==>
      var res := UpdateTask(remote, authUser, e.taskId, if e.payload.Encoded? then e.payload.patch else EmptyPatch, ok);
      st == (if res.succeeded then Dequeued(res.remote) else Halted)
    ensures e.op == Delete && !e.payload.Unparsable? ==>
      var res := DeleteTask(remote, authUser, e.taskId, ok);
      st == (if res.succeeded then Dequeued(res.remote) else Halted)
    ensures st.Dequeued? ==> OthersUntouched(remote, st.remote, authUser)
  {
    if e.payload.Unparsable? then Halted
    else
      match e.op
      case Add =>
        var data := AddData(local, e);
        if data.Null? then Dequeued(remote)
        else Dequeued(AddTaskWithId(remote, authUser, e.taskId, data.value, ok).remote)
      case Update =>
        var res := UpdateTask(remote, authUser, e.taskId, if e.payload.Encoded? then e.payload.patch else EmptyPatch, ok);
        if res.succeeded then Dequeued(res.remote) else Halted
      case Delete =>
        var res := DeleteTask(remote, authUser, e.taskId, ok);
        if res.succeeded then Dequeued(res.remote) else Halted
  }

  /** The remote store after replaying a prefix of `items`, and how many
      items were dequeued before the drain stopped or ran out. */
  datatype Replayed = Replayed(remote: Remote, done: nat)

  /** A row that stops the drain whatever the remote store holds: a payload
      that does not parse, or an `update` or `delete` whose call is refused. */
  predicate Fails(e: PendingChange, authUser: Nullable<string>, ok: bool) {
    e.payload.Unparsable? || ((e.op == Update || e.op == Delete) && !(authUser.NonNull? && ok))
  }

  /** The drain loop over a snapshot, one remote outcome per item. */
  function Replay(local: TaskTable, remote: Remote, authUser: Nullable<string>,
                  items: seq<PendingChange>, net: seq<bool>): (r: Replayed)
    requires |net| == |items|
    ensures r.done <= |items|
    ensures r.done < |items| ==> var e := items[r.done];
      e.payload.Unparsable? || e.op == Update || (e.op == Delete && !(authUser.NonNull? && net[r.done]))
    ensures forall k :: 0 <= k < |items| && Fails(items[k], authUser, net[k]) ==> r.done <= k
    ensures OthersUntouched(remote, r.remote, authUser)
    decreases |items|
  {
    if |items| == 0 then Replayed(remote, 0)
    else
      match ReplayEntry(local, remote, authUser, items[0], net[0])
      case Halted => Replayed(remote, 0)
      case Dequeued(next) =>
        var rest := Replay(local, next, authUser, items[1..], net[1..]);
        Replayed(rest.remote, rest.done + 1)
  }

  /** Replaying the first `d` rows after a row that was dequeued is replaying
      the first `d - 1` rows of the rest from where that row left the store. */
  lemma PrefixUnfold(local: TaskTable, remote: Remote, authUser: Nullable<string>,
                     items: seq<PendingChange>, net: seq<bool>, next: Remote, d: nat)
    requires |net| == |items|
    requires 0 < d <= |items|
    requires ReplayEntry(local, remote, authUser, items[0], net[0]) == Dequeued(next)
    ensures var rest := Replay(local, next, authUser, items[1..][..d-1], net[1..][..d-1]);
      Replay(local, remote, authUser, items[..d], net[..d]) == Replayed(rest.remote, rest.done + 1)
  {
    assert items[..d][0] == items[0] && net[..d][0] == net[0];
    assert items[..d][1..] == items[1..][..d-1];
    assert net[..d][1..] == net[1..][..d-1];
  }

  /** One turn of the drain, unfolded: a dequeued first row adds one to
      what the rest of the replay dequeues. */
  lemma ReplayUnfold(local: TaskTable, remote: Remote, authUser: Nullable<string>,
                     items: seq<PendingChange>, net: seq<bool>)
    requires |net| == |items| && |items| > 0
    ensures ReplayEntry(local, remote, authUser, items[0], net[0]).Halted? ==>
      Replay(local, remote, authUser, items, net) == Replayed(remote, 0)
    ensures ReplayEntry(local, remote, authUser, items[0], net[0]).Dequeued? ==>
      var next := ReplayEntry(local, remote, authUser, items[0], net[0]).remote;
      var rest := Replay(local, next, authUser, items[1..], net[1..]);
      Replay(local, remote, authUser, items, net) == Replayed(rest.remote, rest.done + 1)
  {
  }

  /** The drain stops only where a row really halts: the row it stops at is
      one whose replay, from the store the rows before it left, is
      `Halted`. So an accepted `update` or `delete` never stops it. */
  lemma {:induction false} ReplayStopsOnlyAtHalt(local: TaskTable, remote: Remote, authUser: Nullable<string>,
                                                 items: seq<PendingChange>, net: seq<bool>)
    requires |net| == |items|
    ensures var r := Replay(local, remote, authUser, items, net);
      r.done < |items| ==>
        var before := Replay(local, remote, authUser, items[..r.done], net[..r.done]).remote;
        ReplayEntry(local, before, authUser, items[r.done], net[r.done]).Halted?
    decreases |items|
  {
    var r := Replay(local, remote, authUser, items, net);
    if |items| > 0 && r.done < |items| {
      var st := ReplayEntry(local, remote, authUser, items[0], net[0]);
      ReplayUnfold(local, remote, authUser, items, net);
      if st.Halted? {
        assert items[..0] == [] && net[..0] == [];
      } else {
        var next := st.remote;
        var rest := Replay(local, next, authUser, items[1..], net[1..]);
        assert r.done == rest.done + 1;
        ReplayStopsOnlyAtHalt(local, next, authUser, items[1..], net[1..]);
        var before := Replay(local, next, authUser, items[1..][..rest.done], net[1..][..rest.done]).remote;
        assert ReplayEntry(local, before, authUser, items[1..][rest.done], net[1..][rest.done]).Halted?;
        PrefixUnfold(local, remote, authUser, items, net, next, r.done);
        assert Replay(local, remote, authUser, items[..r.done], net[..r.done]).remote == before;
        assert items[1..][rest.done] == items[r.done];
        assert net[1..][rest.done] == net[r.done];
      }
    }
  }

  /** Rows from the stopping point on have no remote effect: replaying only
      the dequeued prefix leaves the same store and dequeues the same
      rows, as the loop breaks before attempting any later row. */
  lemma {:induction false} HaltedRowsUnsent(local: TaskTable, remote: Remote, authUser: Nullable<string>,
                                            items: seq<PendingChange>, net: seq<bool>)
    requires |net| == |items|
    ensures var r := Replay(local, remote, authUser, items, net);
      Replay(local, remote, authUser, items[..r.done], net[..r.done]) == r
    decreases |items|
  {
    var r := Replay(local, remote, authUser, items, net);
    if |items| > 0 {
      var st := ReplayEntry(local, remote, authUser, items[0], net[0]);
      ReplayUnfold(local, remote, authUser, items, net);
      if st.Halted? {
        assert items[..0] == [] && net[..0] == [];
      } else {
        var next := st.remote;
        var rest := Replay(local, next, authUser, items[1..], net[1..]);
        var d := rest.done + 1;
        assert r == Replayed(rest.remote, d);
        HaltedRowsUnsent(local, next, authUser, items[1..], net[1..]);
        assert Replay(local, next, authUser, items[1..][..d-1], net[1..][..d-1]) == rest;
        PrefixUnfold(local, remote, authUser, items, net, next, d);
      }
    }
  }

  /** The repository after a drain, and how many snapshot rows it dequeued. */
  datatype Drained = Drained(repo: Repo, done: nat)

  /** processQueue: with a signed-in user, replays the sorted snapshot of the
      pending-change table and deletes the rows it got through, stopping at
      the first `update` or `delete` that fails. Without a user nothing
      changes. The local task table is only read. */
  function ProcessQueue(s: Repo, snapshot: seq<PendingChange>, authUser: Nullable<string>, net: seq<bool>): (r: Drained)
    requires IsSortedSnapshot(snapshot, s.queue)
    requires |net| == |snapshot|
    ensures CurrentUserId(authUser).Null? ==> r == Drained(s, 0)
    ensures r.repo.local == s.local
    ensures r.done <= |snapshot|
    ensures forall e :: e in r.repo.queue <==> e in s.queue && e.id !in Ids(snapshot[..r.done])
    ensures r.done < |snapshot| && CurrentUserId(authUser).NonNull? ==> var e := snapshot[r.done];
      e.payload.Unparsable? || e.op == Update || (e.op == Delete && !net[r.done])
    ensures CurrentUserId(authUser).NonNull? ==>
      forall k :: 0 <= k < |snapshot| && Fails(snapshot[k], authUser, net[k]) ==> r.done <= k
    ensures CurrentUserId(authUser).NonNull? ==>
      var rp := Replay(s.local, s.remote, authUser, snapshot, net);
      r.done == rp.done && r.repo.remote == rp.remote
    ensures OthersUntouched(s.remote, r.repo.remote, authUser)
    ensures UniqueIds(s.queue) ==> UniqueIds(r.repo.queue)
  {
    if CurrentUserId(authUser).Null? then Drained(s, 0)
    else
      var rp := Replay(s.local, s.remote, authUser, snapshot, net);
      var q := RemoveIds(s.queue, Ids(snapshot[..rp.done]));
      assert UniqueIds(s.queue) ==> UniqueIds(q) by {
        if UniqueIds(s.queue) {
          forall x ensures multiset(q)[x] <= 1 {
            assert multiset(q)[x] <= multiset(s.queue)[x];
          }
        }
      }
      Drained(Repo(s.local, q, rp.remote), rp.done)
  }

  /** In a sequence with distinct keys, a row's key is among the keys of a
      prefix exactly when the row lies inside that prefix. */
  lemma PrefixIds(snapshot: seq<PendingChange>, d: nat)
    requires UniqueIds(snapshot)
    requires d <= |snapshot|
    ensures forall i :: 0 <= i < |snapshot| ==> (snapshot[i].id in Ids(snapshot[..d]) <==> i < d)
  {
    forall i | 0 <= i < |snapshot| ensures snapshot[i].id in Ids(snapshot[..d]) <==> i < d {
      if i < d {
        assert snapshot[i] == snapshot[..d][i];
      } else if snapshot[i].id in Ids(snapshot[..d]) {
        var x :| x in snapshot[..d] && x.id == snapshot[i].id;
        var k :| 0 <= k < d && snapshot[..d][k] == x;
        OnePosition(snapshot, k, i);
      }
    }
  }

  /** A drain dequeues exactly a prefix of the snapshot: the rows before
      the stopping point are gone, the row it stopped at and every later row
      are still queued. */
  lemma DrainDequeuesPrefix(s: Repo, snapshot: seq<PendingChange>, authUser: Nullable<string>, net: seq<bool>)
    requires IsSortedSnapshot(snapshot, s.queue)
    requires |net| == |snapshot|
    requires UniqueIds(s.queue)
    ensures var r := ProcessQueue(s, snapshot, authUser, net);
      forall i :: 0 <= i < |snapshot| ==> (snapshot[i] in r.repo.queue <==> r.done <= i)
  {
    var r := ProcessQueue(s, snapshot, authUser, net);
    SnapshotKeepsUniqueIds(snapshot, s.queue);
    PrefixIds(snapshot, r.done);
    forall i | 0 <= i < |snapshot| ensures snapshot[i] in s.queue {
      assert snapshot[i] in multiset(s.queue);
    }
  }

  /** Rows leave the table oldest first: every row a drain deleted was
      stamped no later than every row it left queued. */
  lemma DrainRemovesOldestFirst(s: Repo, snapshot: seq<PendingChange>, authUser: Nullable<string>, net: seq<bool>)
    requires IsSortedSnapshot(snapshot, s.queue)
    requires |net| == |snapshot|
    requires UniqueIds(s.queue)
    ensures var r := ProcessQueue(s, snapshot, authUser, net);
      forall a, b :: a in s.queue && a !in r.repo.queue && b in r.repo.queue ==> a.timestamp <= b.timestamp
  {
    var r := ProcessQueue(s, snapshot, authUser, net);
    DrainDequeuesPrefix(s, snapshot, authUser, net);
    forall a, b | a in s.queue && a !in r.repo.queue && b in r.repo.queue
      ensures a.timestamp <= b.timestamp
    {
      assert a in multiset(snapshot) && b in multiset(snapshot);
      var i :| 0 <= i < |snapshot| && snapshot[i] == a;
      var j :| 0 <= j < |snapshot| && snapshot[j] == b;
      assert i < r.done <= j;
    }
  }
}

=== FILE: pending_queue.dfy ===
/** The pending-change table read as a queue: its rows in ascending
    `timestamp` order (Realm's `sorted('timestamp')`), and removal of
    processed rows by primary key. Rows with equal timestamps have no
    defined relative order, so a drain is given one sorted snapshot out of
    all those possible. */
module PendingQueue {
  import opened Realm

  /** Ascending by timestamp; equal timestamps may come in either order. */
  ghost predicate Sorted(q: seq<PendingChange>) {
    forall i, j :: 0 <= i < j < |q| ==> q[i].timestamp <= q[j].timestamp
  }

  /** Strictly ascending by timestamp: each row was stamped later than the
      one before it. */
  ghost predicate StrictlyTimed(q: seq<PendingChange>) {
    forall i, j :: 0 <= i < j < |q| ==> q[i].timestamp < q[j].timestamp
  }

  /** `order` is what `sorted('timestamp')` may return for table `q`: the
      same rows, ascending by timestamp. */
  ghost predicate IsSortedSnapshot(order: seq<PendingChange>, q: seq<PendingChange>) {
    multiset(order) == multiset(q) && Sorted(order)
  }

  /** A row stamped no later than every row of a sorted sequence may lead it. */
  lemma SortedCons(x: PendingChange, t: seq<PendingChange>)
    requires Sorted(t)
    requires forall y :: y in t ==> x.timestamp <= y.timestamp
    ensures Sorted([x] + t)
  {
    var r := [x] + t;
    forall i, j | 0 <= i < j < |r| ensures r[i].timestamp <= r[j].timestamp {
      if i == 0 { assert r[j] in t; } else { assert r[i] == t[i - 1] && r[j] == t[j - 1]; }
    }
  }

  /** The first row of a sorted sequence is stamped no later than any row. */
  lemma HeadLeast(s: seq<PendingChange>)
    requires Sorted(s) && |s| > 0
    ensures forall y :: y in s ==> s[0].timestamp <= y.timestamp
  {
    forall y | y in s ensures s[0].timestamp <= y.timestamp {
      var k :| 0 <= k < |s| && s[k] == y;
      if k > 0 { assert s[0].timestamp <= s[k].timestamp; }
    }
  }

  /** Inserts `e` before the first row stamped no earlier than it. */
  function Insert(e: PendingChange, s: seq<PendingChange>): (r: seq<PendingChange>)
    requires Sorted(s)
    ensures Sorted(r)
    ensures multiset(r) == multiset(s) + multiset{e}
    ensures forall y :: y in r ==> y == e || y in s
  {
    if |s| == 0 || e.timestamp <= s[0].timestamp then
      SortedCons(e, s);
      [e] + s
    else
      var rest := Insert(e, s[1..]);
      assert s == [s[0]] + s[1..];
      HeadLeast(s);
      assert forall y :: y in s[1..] ==> y in s;
      SortedCons(s[0], rest);
      [s[0]] + rest
  }

  /** One snapshot `sorted('timestamp')` may return: a stable insertion sort.
      Its existence shows that every table has a snapshot a drain can be
      given. */
  function SortByTimestamp(q: seq<PendingChange>): (r: seq<PendingChange>)
    ensures IsSortedSnapshot(r, q)
  {
    if |q| == 0 then []
    else
      assert q == [q[0]] + q[1..];
      Insert(q[0], SortByTimestamp(q[1..]))
  }

  /** The table after deleting every row whose primary key is in `ids`. */
  function RemoveIds(q: seq<PendingChange>, ids: set<string>): (r: seq<PendingChange>)
    ensures forall e :: e in r <==> e in q && e.id !in ids
    ensures multiset(r) <= multiset(q)
    ensures Ids(q) <= ids ==> r == []
    ensures Ids(q) !! ids ==> r == q
  {
    if |q| == 0 then []
    else
      assert q == [q[0]] + q[1..];
      (if q[0].id in ids then [] else [q[0]]) + RemoveIds(q[1..], ids)
  }

  /** Inserting a row under a fresh key keeps the keys distinct. */
  lemma AppendFreshKeepsUniqueIds(q: seq<PendingChange>, e: PendingChange)
    requires UniqueIds(q)
    requires e.id !in Ids(q)
    ensures UniqueIds(q + [e])
  {
    assert e !in q;
    assert multiset(q + [e]) == multiset(q) + multiset{e};
  }

  /** Every sorted snapshot of a table with distinct keys has distinct keys. */
  lemma SnapshotKeepsUniqueIds(order: seq<PendingChange>, q: seq<PendingChange>)
    requires IsSortedSnapshot(order, q)
    requires UniqueIds(q)
    ensures UniqueIds(order)
  {
    forall e ensures e in order <==> e in q {
      assert e in order <==> e in multiset(order);
      assert e in q <==> e in multiset(q);
    }
  }

  /** A row of a table with distinct keys sits at one position only. */
  lemma OnePosition(q: seq<PendingChange>, i: int, j: int)
    requires UniqueIds(q)
    requires 0 <= i < |q| && 0 <= j < |q| && q[i].id == q[j].id
    ensures i == j
  {
    var lo, hi := if i < j then i else j, if i < j then j else i;
    var x := q[hi];
    assert q == q[..hi] + q[hi..];
    assert multiset(q) == multiset(q[..hi]) + multiset(q[hi..]);
    assert x in q[hi..];
    assert q[lo] == x;
    assert multiset(q)[x] == multiset(q[..hi])[x] + multiset(q[hi..])[x];
    assert multiset(q[hi..])[x] >= 1;
    assert multiset(q)[x] <= 1;
    if lo < hi {
      assert false;
    }
  }

  /** Dropping the first row keeps a sequence sorted, or strictly timed. */
  lemma TailsStayOrdered(order: seq<PendingChange>, q: seq<PendingChange>)
    requires |order| > 0 && |q| > 0
    requires Sorted(order) && StrictlyTimed(q)
    ensures Sorted(order[1..]) && StrictlyTimed(q[1..])
  {
    forall i, j | 0 <= i < j < |order| - 1 ensures order[1..][i].timestamp <= order[1..][j].timestamp {
      assert order[1..][i] == order[i + 1] && order[1..][j] == order[j + 1];
    }
    forall i, j | 0 <= i < j < |q| - 1 ensures q[1..][i].timestamp < q[1..][j].timestamp {
      assert q[1..][i] == q[i + 1] && q[1..][j] == q[j + 1];
    }
  }

  /** In a strictly timed table only the first row is stamped no later than it. */
  lemma EarliestLeads(q: seq<PendingChange>, k: int)
    requires StrictlyTimed(q)
    requires 0 <= k < |q| && q[k].timestamp <= q[0].timestamp
    ensures k == 0
  {
  }

  /** A strictly timed table has exactly one sorted snapshot: itself. */
  lemma {:induction false} StrictlyTimedSnapshotIsUnique(order: seq<PendingChange>, q: seq<PendingChange>)
    requires StrictlyTimed(q)
    requires IsSortedSnapshot(order, q)
    ensures order == q
  {
    if |q| == 0 {
      assert |order| == |multiset(order)| == 0;
    } else {
      assert |order| == |multiset(order)| == |multiset(q)| == |q|;
      var a, b := order[0], q[0];
      assert a in multiset(q) && b in multiset(order);
      var i :| 0 <= i < |q| && q[i] == a;
      var j :| 0 <= j < |order| && order[j] == b;
      assert a.timestamp <= b.timestamp by {
        if j > 0 { assert order[0].timestamp <= order[j].timestamp; }
      }
      EarliestLeads(q, i);
      assert a == b;
      assert order == [a] + order[1..];
      assert q == [b] + q[1..];
      assert multiset(order) == multiset{a} + multiset(order[1..]);
      assert multiset(q) == multiset{b} + multiset(q[1..]);
      assert multiset(order[1..]) == multiset(order) - multiset{a};
      assert multiset(q[1..]) == multiset(q) - multiset{b};
      TailsStayOrdered(order, q);
      StrictlyTimedSnapshotIsUnique(order[1..], q[1..]);
    }
  }

  /** A row stamped later than every row of a strictly timed table extends
      it, and the extended table is its own sorted snapshot. */
  lemma AppendLaterKeepsStrictlyTimed(q: seq<PendingChange>, e: PendingChange)
    requires StrictlyTimed(q)
    requires forall x :: x in q ==> x.timestamp < e.timestamp
    ensures StrictlyTimed(q + [e])
    ensures IsSortedSnapshot(q + [e], q + [e])
  {
    var r := q + [e];
    forall i, j | 0 <= i < j < |r| ensures r[i].timestamp < r[j].timestamp {
      if j == |q| { assert r[i] in q; }
    }
  }
}

=== FILE: realm.dfy ===
/** The local Realm database: the record shapes of its two tables, the
    normaliser that turns a task object into a stored record, reading a
    record back, and the rule that the database handle is opened once and
    then shared (src/storage/realm.ts). */
module Realm {
  import opened Js

  /** An instant as written by `Date.prototype.toISOString`; a `Date` value
      is identified with this string. Such a string is never empty, so every
      truthiness test the code makes on a date is a test for `null`. */
  type Iso = s: string | s != "" witness "1970-01-01T00:00:00.000Z"

  /** A row of the `TaskR` table; `id` is the primary key. */
  datatype TaskR = TaskR(
    id: string,
    title: string,
    description: Nullable<string>,
    isCompleted: bool,
    dueDate: Nullable<Iso>,
    createdAt: Iso,
    updatedAt: Iso,
    userId: string)

  /** A task as a loosely typed JavaScript object: what `toTaskR` accepts and
      what reading the table gives back. */
  datatype TaskObject = TaskObject(
    id: string,
    title: string,
    description: Prop<Nullable<string>>,
    isCompleted: Prop<bool>,
    dueDate: Prop<Nullable<Iso>>,
    createdAt: Iso,
    updatedAt: Iso,
    userId: string)

  datatype PendingOp = Add | Update | Delete

  /** The partial task a pending change carries: any subset of the four
      fields a client may change. */
  datatype Patch = Patch(
    title: Prop<string>,
    description: Prop<Nullable<string>>,
    isCompleted: Prop<bool>,
    dueDate: Prop<Nullable<Iso>>)

  /** The patch that names no field. */
  const EmptyPatch := Patch(Absent, Absent, Absent, Absent)

  /** The `payload` column: `null`, the JSON text of a patch, or text that
      does not parse. */
  datatype StoredPayload = NoPayload | Encoded(patch: Patch) | Unparsable

  /** A row of the `PendingChange` table; `id` is the primary key. */
  datatype PendingChange = PendingChange(
    id: string,
    op: PendingOp,
    taskId: string,
    payload: StoredPayload,
    timestamp: int)

  type TaskTable = map<string, TaskR>

  /** The task table is keyed by each record's own primary key. */
  ghost predicate KeyedById(t: TaskTable) {
    forall k :: k in t ==> t[k].id == k
  }

  /** No two rows of the pending-change table share a primary key: no row
      occurs twice, and rows with the same key are the same row. */
  ghost predicate UniqueIds(q: seq<PendingChange>) {
    && (forall x :: multiset(q)[x] <= 1)
    && (forall a, b :: a in q && b in q && a.id == b.id ==> a == b)
  }

  /** The primary keys of a sequence of pending changes. */
  function Ids(q: seq<PendingChange>): (r: set<string>)
    ensures forall e :: e in q ==> e.id in r
    ensures forall k :: k in r ==> exists e :: e in q && e.id == k
  {
    set e | e in q :: e.id
  }

  /** toTaskR: the record stored for a task object. */
  function ToTaskR(t: TaskObject): (r: TaskR)
    ensures r.id == t.id && r.title == t.title && r.userId == t.userId
    ensures r.createdAt == t.createdAt && r.updatedAt == t.updatedAt
    ensures r.description.Null? <==> !(t.description.Has? && t.description.value.NonNull?)
    ensures r.dueDate.Null? <==> !(t.dueDate.Has? && t.dueDate.value.NonNull?)
    ensures r.description.NonNull? ==> t.description == Has(r.description)
    ensures r.dueDate.NonNull? ==> t.dueDate == Has(r.dueDate)
    ensures r.isCompleted <==> t.isCompleted == Has(true)
  {
    TaskR(t.id, t.title, OrNull(t.description), Truthy(t.isCompleted),
          OrNull(t.dueDate), t.createdAt, t.updatedAt, t.userId)
  }

  /** The object one row of `getAllTasksLocal` yields: `null` columns read
      back as properties holding `undefined`. */
  function ReadTask(r: TaskR): (o: TaskObject)
    ensures ToTaskR(o) == r
  {
    TaskObject(
      r.id, r.title,
      if r.description.Null? then Undefined else Has(r.description),
      Has(r.isCompleted),
      if r.dueDate.Null? then Undefined else Has(r.dueDate),
      r.createdAt, r.updatedAt, r.userId)
  }

  /** Reading back a stored task gives the original object, except that a
      description or due date that was missing, `undefined` or `null` reads
      back as `undefined`, and a missing completion flag reads back `false`. */
  lemma ReadBackRoundTrip(t: TaskObject)
    ensures var b := ReadTask(ToTaskR(t));
      && b.id == t.id && b.title == t.title && b.userId == t.userId
      && b.createdAt == t.createdAt && b.updatedAt == t.updatedAt
      && b.isCompleted == Has(t.isCompleted == Has(true))
      && (if t.description.Has? && t.description.value.NonNull?
          then b.description == t.description else b.description == Undefined)
      && (if t.dueDate.Has? && t.dueDate.value.NonNull?
          then b.dueDate == t.dueDate else b.dueDate == Undefined)
  {
  }

  /** The process-wide database handle: `null` until `openRealm` succeeds. */
  datatype Handle = Unopened | Opened(instance: nat)

  /** The outcome of `Realm.open`, which this model cannot see into. */
  datatype OpenAttempt = Opens(instance: nat) | OpenFails(reason: string)

  datatype Opening = Opening(handle: Handle, result: Result<nat, string>)

  /** openRealm: an open handle is returned as is; otherwise the database is
      opened and the handle kept, or the failure propagates and nothing is kept. */
  function OpenRealm(h: Handle, attempt: OpenAttempt): (r: Opening)
    ensures h.Opened? ==> r == Opening(h, Ok(h.instance))
    ensures r.result.Ok? ==> r.handle == Opened(r.result.value)
    ensures r.result.Err? ==> r.handle == Unopened && h == Unopened && attempt.OpenFails?
    ensures h == Unopened && attempt.Opens? ==> r.result == Ok(attempt.instance)
  {
    match h
    case Opened(i) => Opening(h, Ok(i))
    case Unopened =>
      match attempt
      case Opens(i) => Opening(Opened(i), Ok(i))
      case OpenFails(e) => Opening(Unopened, Err(e))
  }

  const NotOpenedMessage := "Realm not opened. Call openRealm() first."

  /** getRealmSync: the shared handle, or a thrown error before it is opened. */
  function GetRealmSync(h: Handle): (r: Result<nat, string>)
    ensures r.Err? <==> h == Unopened
    ensures r.Err? ==> r.error == NotOpenedMessage
  {
    if h.Opened? then Ok(h.instance) else Err(NotOpenedMessage)
  }

  /** Once `openRealm` has returned an instance, every later `openRealm`,
      whatever `Realm.open` would have done, and every `getRealmSync`
      return that same instance. */
  lemma OpenRealmIdempotent(h: Handle, first: OpenAttempt, later: OpenAttempt)
    requires OpenRealm(h, first).result.Ok?
    ensures var o := OpenRealm(h, first);
      && OpenRealm(o.handle, later) == Opening(o.handle, o.result)
      && GetRealmSync(o.handle) == o.result
  {
  }
}

=== FILE: settings_slice.dfy ===
/** The `settings` slice of the Redux store
    (src/redux/slices/settingsSlice.ts): the chosen theme mode and four
    preferences, each with a setter, plus a theme toggle and a reset. */
module SettingsSlice {
  import opened Js

  datatype ThemeMode = Light | Dark | System

  datatype SettingsState = SettingsState(
    theme: ThemeMode,
    notificationsEnabled: bool,
    syncOnCellular: bool,
    isFirstLaunch: bool,
    lastSync: Nullable<int>)

  /** The state before any action and after `resetSettings`. */
  const Initial := SettingsState(Light, true, false, true, Null)

  /** setTheme: only the theme changes. */
  function SetTheme(s: SettingsState, m: ThemeMode): (r: SettingsState)
    ensures r.theme == m
    ensures r.notificationsEnabled == s.notificationsEnabled && r.syncOnCellular == s.syncOnCellular
    ensures r.isFirstLaunch == s.isFirstLaunch && r.lastSync == s.lastSync
  {
    s.(theme := m)
  }

  /** toggleTheme: light becomes dark; dark and system both become light. */
  function ToggleTheme(s: SettingsState): (r: SettingsState)
    ensures r.theme != System
    ensures r.theme == Dark <==> s.theme == Light
    ensures r == SetTheme(s, r.theme)
  {
    s.(theme := if s.theme == Light then Dark else Light)
  }

  /** setNotificationsEnabled: only that preference changes. */
  function SetNotificationsEnabled(s: SettingsState, b: bool): (r: SettingsState)
    ensures r.notificationsEnabled == b
    ensures r.theme == s.theme && r.syncOnCellular == s.syncOnCellular
    ensures r.isFirstLaunch == s.isFirstLaunch && r.lastSync == s.lastSync
  {
    s.(notificationsEnabled := b)
  }

  /** setSyncOnCellular: only that preference changes. */
  function SetSyncOnCellular(s: SettingsState, b: bool): (r: SettingsState)
    ensures r.syncOnCellular == b
    ensures r.theme == s.theme && r.notificationsEnabled == s.notificationsEnabled
    ensures r.isFirstLaunch == s.isFirstLaunch && r.lastSync == s.lastSync
  {
    s.(syncOnCellular := b)
  }

  /** setFirstLaunch: only the first-launch flag changes. */
  function SetFirstLaunch(s: SettingsState, b: bool): (r: SettingsState)
    ensures r.isFirstLaunch == b
    ensures r.theme == s.theme && r.notificationsEnabled == s.notificationsEnabled
    ensures r.syncOnCellular == s.syncOnCellular && r.lastSync == s.lastSync
  {
    s.(isFirstLaunch := b)
  }

  /** setLastSync: only the last sync time changes. */
  function SetLastSync(s: SettingsState, t: int): (r: SettingsState)
    ensures r.lastSync == NonNull(t)
    ensures r.theme == s.theme && r.notificationsEnabled == s.notificationsEnabled
    ensures r.syncOnCellular == s.syncOnCellular && r.isFirstLaunch == s.isFirstLaunch
  {
    s.(lastSync := NonNull(t))
  }

  datatype SettingsAction =
    | SetThemeTo(mode: ThemeMode)
    | Toggle
    | SetNotifications(on: bool)
    | SetCellular(on: bool)
    | SetFirst(on: bool)
    | SetSync(at: int)
    | Reset

  function Reduce(s: SettingsState, a: SettingsAction): SettingsState {
    match a
    case SetThemeTo(m) => SetTheme(s, m)
    case Toggle => ToggleTheme(s)
    case SetNotifications(b) => SetNotificationsEnabled(s, b)
    case SetCellular(b) => SetSyncOnCellular(s, b)
    case SetFirst(b) => SetFirstLaunch(s, b)
    case SetSync(t) => SetLastSync(s, t)
    case Reset => Initial
  }

  /** resetSettings yields the initial state from any state, whatever came before. */
  lemma ResetRestoresInitial(s: SettingsState, a: SettingsAction)
    ensures Reduce(s, Reset) == Initial
    ensures Reduce(Reduce(s, a), Reset) == Reduce(Initial, Reset)
  {
  }

  /** Every setter is idempotent: dispatching it twice with the same
      payload is dispatching it once. */
  lemma SettersIdempotent(s: SettingsState, a: SettingsAction)
    requires !a.Toggle?
    ensures Reduce(Reduce(s, a), a) == Reduce(s, a)
  {
  }

  /** Toggling twice restores a light or dark theme; from `system` the
      first toggle goes to light and the second to dark. */
  lemma ToggleTwice(s: SettingsState)
    ensures s.theme != System ==> ToggleTheme(ToggleTheme(s)) == s
    ensures s.theme == System ==> ToggleTheme(ToggleTheme(s)) == s.(theme := Dark)
  {
  }
}

=== FILE: task_slice.dfy ===
/** The `tasks` slice of the Redux store (src/redux/slices/taskSlice.ts):
    the task list the screens render, a loading flag, the last error and the
    time of the last change. Each reducer is a function from the state and
    the action's payload to the next state; `Date.now()` and
    `new Date().toISOString()` arrive as `nowMs` and `nowIso`. */
module TaskSlice {
  import opened Js

  /** A task as the store holds it; the optional fields may be missing. */
  datatype Task = Task(
    id: string,
    title: string,
    description: Prop<string>,
    isCompleted: bool,
    dueDate: Prop<string>,
    createdAt: string,
    updatedAt: string,
    userId: string)

  datatype TaskState = TaskState(
    tasks: seq<Task>,
    isLoading: bool,
    error: Nullable<string>,
    lastUpdated: Nullable<int>)

  const Initial := TaskState([], false, Null, Null)

  /** Whether some task in the list carries `id`. */
  predicate HasId(tasks: seq<Task>, id: string) {
    exists i :: 0 <= i < |tasks| && tasks[i].id == id
  }

  /** `findIndex(task => task.id === id)`: the position of the first task
      with that id, or `-1`. */
  function FindIndex(tasks: seq<Task>, id: string): (i: int)
    ensures -1 <= i < |tasks|
    ensures i == -1 <==> !HasId(tasks, id)
    ensures i >= 0 ==> tasks[i].id == id && forall k :: 0 <= k < i ==> tasks[k].id != id
  {
    if |tasks| == 0 then -1
    else if tasks[0].id == id then 0
    else
      var j := FindIndex(tasks[1..], id);
      assert HasId(tasks, id) ==> HasId(tasks[1..], id) by {
        if HasId(tasks, id) {
          var k :| 0 <= k < |tasks| && tasks[k].id == id;
          assert tasks[1..][k - 1].id == id;
        }
      }
      if j == -1 then -1 else j + 1
  }

  /** fetchTasksStart: loading begins and the last error is forgotten. */
  function FetchTasksStart(s: TaskState): (r: TaskState)
    ensures r.isLoading && r.error == Null
    ensures r.tasks == s.tasks && r.lastUpdated == s.lastUpdated
  {
    s.(isLoading := true, error := Null)
  }

  /** fetchTasksSuccess: the fetched list replaces the old one. */
  function FetchTasksSuccess(s: TaskState, fetched: seq<Task>, nowMs: int): (r: TaskState)
    ensures r.tasks == fetched
    ensures !r.isLoading && r.error == Null && r.lastUpdated == NonNull(nowMs)
  {
    TaskState(fetched, false, Null, NonNull(nowMs))
  }

  /** fetchTasksFailure: loading ends with the message as the error. */
  function FetchTasksFailure(s: TaskState, message: string): (r: TaskState)
    ensures !r.isLoading && r.error == NonNull(message)
    ensures r.tasks == s.tasks && r.lastUpdated == s.lastUpdated
  {
    s.(isLoading := false, error := NonNull(message))
  }

  /** addTask: the task is appended after every existing one. */
  function AddTask(s: TaskState, t: Task, nowMs: int): (r: TaskState)
    ensures |r.tasks| == |s.tasks| + 1
    ensures r.tasks[..|s.tasks|] == s.tasks && r.tasks[|s.tasks|] == t
    ensures r.lastUpdated == NonNull(nowMs)
    ensures r.isLoading == s.isLoading && r.error == s.error
  {
    var tasks := s.tasks + [t];
    assert tasks[..|s.tasks|] == s.tasks;
    s.(tasks := tasks, lastUpdated := NonNull(nowMs))
  }

  /** updateTask: the first task with the payload's id is replaced by the
      payload; with no such task nothing changes. */
  function UpdateTask(s: TaskState, t: Task, nowMs: int): (r: TaskState)
    ensures !HasId(s.tasks, t.id) ==> r == s
    ensures HasId(s.tasks, t.id) ==> var i := FindIndex(s.tasks, t.id);
      && |r.tasks| == |s.tasks| && r.tasks[i] == t
      && (forall k :: 0 <= k < |s.tasks| && k != i ==> r.tasks[k] == s.tasks[k])
      && r.lastUpdated == NonNull(nowMs)
    ensures r.isLoading == s.isLoading && r.error == s.error
  {
    var i := FindIndex(s.tasks, t.id);
    if i != -1 then s.(tasks := s.tasks[i := t], lastUpdated := NonNull(nowMs)) else s
  }

  /** `filter(task => task.id !== id)`. */
  function Without(tasks: seq<Task>, id: string): (r: seq<Task>)
    ensures forall x :: x in r <==> x in tasks && x.id != id
    ensures |r| <= |tasks|
    ensures !HasId(tasks, id) ==> r == tasks
  {
    if |tasks| == 0 then []
    else
      assert tasks == [tasks[0]] + tasks[1..];
      assert !HasId(tasks, id) ==> !HasId(tasks[1..], id) by {
        if HasId(tasks[1..], id) {
          var k :| 0 <= k < |tasks[1..]| && tasks[1..][k].id == id;
          assert tasks[k + 1].id == id;
        }
      }
      (if tasks[0].id == id then [] else [tasks[0]]) + Without(tasks[1..], id)
  }

  /** Filtering distributes over concatenation: the tasks that stay keep
      their relative order. */
  lemma {:induction false} WithoutAppend(a: seq<Task>, b: seq<Task>, id: string)
    ensures Without(a + b, id) == Without(a, id) + Without(b, id)
    decreases |a|
  {
    if |a| == 0 {
      assert a + b == b;
    } else {
      assert (a + b)[1..] == a[1..] + b;
      WithoutAppend(a[1..], b, id);
    }
  }

  /** Filtering twice by the same id is filtering once. */
  lemma WithoutIdempotent(tasks: seq<Task>, id: string)
    ensures Without(Without(tasks, id), id) == Without(tasks, id)
  {
  }

  /** deleteTask: every task with that id is removed, the rest keep their
      order, and the change time is set even when nothing was removed. */
  function DeleteTask(s: TaskState, id: string, nowMs: int): (r: TaskState)
    ensures r.tasks == Without(s.tasks, id)
    ensures !HasId(r.tasks, id)
    ensures r.lastUpdated == NonNull(nowMs)
    ensures r.isLoading == s.isLoading && r.error == s.error
  {
    s.(tasks := Without(s.tasks, id), lastUpdated := NonNull(nowMs))
  }

  /** toggleTaskCompletion: the first task with that id has its flag
      flipped and its `updatedAt` refreshed; with no such task nothing
      changes. */
  function ToggleTaskCompletion(s: TaskState, id: string, nowIso: string, nowMs: int): (r: TaskState)
    ensures !HasId(s.tasks, id) ==> r == s
    ensures HasId(s.tasks, id) ==> var i := FindIndex(s.tasks, id);
      && |r.tasks| == |s.tasks|
      && r.tasks[i] == s.tasks[i].(isCompleted := !s.tasks[i].isCompleted, updatedAt := nowIso)
      && (forall k :: 0 <= k < |s.tasks| && k != i ==> r.tasks[k] == s.tasks[k])
      && r.lastUpdated == NonNull(nowMs)
    ensures r.isLoading == s.isLoading && r.error == s.error
  {
    var i := FindIndex(s.tasks, id);
    if i == -1 then s
    else
      var t := s.tasks[i];
      s.(tasks := s.tasks[i := t.(isCompleted := !t.isCompleted, updatedAt := nowIso)], lastUpdated := NonNull(nowMs))
  }

  /** Toggling the same task twice restores every completion flag, and
      every field but the toggled task's `updatedAt`. */
  lemma ToggleTwiceRestores(s: TaskState, id: string, iso1: string, ms1: int, iso2: string, ms2: int)
    ensures var r := ToggleTaskCompletion(ToggleTaskCompletion(s, id, iso1, ms1), id, iso2, ms2);
      && |r.tasks| == |s.tasks|
      && (forall k :: 0 <= k < |s.tasks| ==> r.tasks[k] == s.tasks[k].(updatedAt := r.tasks[k].updatedAt))
      && r.isLoading == s.isLoading && r.error == s.error
      && (HasId(s.tasks, id) ==> r.lastUpdated == NonNull(ms2))
      && (!HasId(s.tasks, id) ==> r == s)
  {
    var m := ToggleTaskCompletion(s, id, iso1, ms1);
    if HasId(s.tasks, id) {
      var i := FindIndex(s.tasks, id);
      assert m.tasks[i].id == id;
      assert forall k :: 0 <= k < i ==> m.tasks[k].id != id;
      assert FindIndex(m.tasks, id) == i;
    }
  }

  /** clearError: only the error is cleared. */
  function ClearError(s: TaskState): (r: TaskState)
    ensures r.error == Null
    ensures r.tasks == s.tasks && r.isLoading == s.isLoading && r.lastUpdated == s.lastUpdated
  {
    s.(error := Null)
  }

  /** The actions of the slice, with the clock readings their reducers take. */
  datatype TaskAction =
    | FetchStart
    | FetchSuccess(fetched: seq<Task>, nowMs: int)
    | FetchFailure(message: string)
    | Add(task: Task, nowMs: int)
    | Update(task: Task, nowMs: int)
    | Delete(id: string, nowMs: int)
    | Toggle(id: string, nowIso: string, nowMs: int)
    | Clear

  function Reduce(s: TaskState, a: TaskAction): TaskState {
    match a
    case FetchStart => FetchTasksStart(s)
    case FetchSuccess(fetched, ms) => FetchTasksSuccess(s, fetched, ms)
    case FetchFailure(message) => FetchTasksFailure(s, message)
    case Add(t, ms) => AddTask(s, t, ms)
    case Update(t, ms) => UpdateTask(s, t, ms)
    case Delete(id, ms) => DeleteTask(s, id, ms)
    case Toggle(id, iso, ms) => ToggleTaskCompletion(s, id, iso, ms)
    case Clear => ClearError(s)
  }

  /** Only the fetch actions move the loading flag: an idle store stays
      idle under every other action. */
  lemma OnlyFetchesLoad(s: TaskState, a: TaskAction)
    requires !a.FetchStart?
    ensures Reduce(s, a).isLoading ==> s.isLoading
  {
  }
}

=== FILE: theme_context.dfy ===
/** Theme resolution (src/theme/ThemeContext.tsx): the provider decides
    whether the app is dark from the stored theme mode and the system's
    colour scheme, toggles by storing an explicit mode, and hands out the
    matching palette; `useTheme` refuses to run outside a provider. The
    system scheme is an argument, as `useColorScheme()` is outside the model. */
module ThemeContext {
  import opened Js
  import Settings = SettingsSlice

  /** What `useColorScheme()` reports; it may report nothing. */
  datatype ColorScheme = SchemeLight | SchemeDark | NoScheme

  /** The two palettes of src/theme/theme.ts; their colours are not modelled. */
  datatype Palette = LightPalette | DarkPalette

  /** The initial `isDark` of a freshly mounted provider. */
  function InitialIsDark(stored: Settings.ThemeMode, scheme: ColorScheme): (d: bool)
    ensures stored == Settings.Dark ==> d
    ensures stored == Settings.Light ==> !d
  {
    stored == Settings.Dark || (stored == Settings.System && scheme == SchemeDark)
  }

  /** The `isDark` the effect sets whenever the stored mode or the system
      scheme changes: the system decides under `system`, the stored mode
      otherwise. */
  function EffectIsDark(stored: Settings.ThemeMode, scheme: ColorScheme): (d: bool)
    ensures stored == Settings.Dark ==> d
    ensures stored == Settings.Light ==> !d
  {
    if stored == Settings.System then scheme == SchemeDark else stored == Settings.Dark
  }

  /** The initial value and the effect agree: on mount the effect finds
      nothing to change, and a `system` mode follows the system scheme
      exactly. */
  lemma InitialAgreesWithEffect(stored: Settings.ThemeMode, scheme: ColorScheme)
    ensures InitialIsDark(stored, scheme) == EffectIsDark(stored, scheme)
    ensures stored == Settings.System ==> (EffectIsDark(stored, scheme) <==> scheme == SchemeDark)
  {
  }

  /** The mode the provider's `toggleTheme` dispatches: the opposite of what
      is shown, never `system`. */
  function ToggleTarget(isDark: bool): (m: Settings.ThemeMode)
    ensures m != Settings.System
    ensures m == Settings.Light <==> isDark
  {
    if isDark then Settings.Light else Settings.Dark
  }

  /** The palette handed out: the dark one exactly when `isDark`. */
  function ChoosePalette(isDark: bool): (p: Palette)
    ensures p == DarkPalette <==> isDark
  {
    if isDark then DarkPalette else LightPalette
  }

  /** Dispatching the provider's toggle flips what is shown, whatever the
      system scheme and whatever mode was stored before. */
  lemma ProviderToggleFlips(s: Settings.SettingsState, scheme: ColorScheme, later: ColorScheme)
    ensures var isDark := EffectIsDark(s.theme, scheme);
      var t := Settings.SetTheme(s, ToggleTarget(isDark));
      && EffectIsDark(t.theme, later) == !isDark
      && ChoosePalette(EffectIsDark(t.theme, later)) != ChoosePalette(isDark)
  {
  }

  /** The settings slice's own `toggleTheme`, applied to a `system` mode
      while the system is light, changes nothing on screen: light is shown
      before and after. */
  lemma SliceToggleFromSystemMayNotFlip(s: Settings.SettingsState)
    requires s.theme == Settings.System
    ensures !EffectIsDark(s.theme, SchemeLight)
    ensures !EffectIsDark(Settings.ToggleTheme(s).theme, SchemeLight)
  {
  }

  /** What a provider puts in context. */
  datatype ThemeValue = ThemeValue(theme: Palette, isDark: bool)

  /** The value a provider gives its children once its effect has run. */
  function ProviderValue(stored: Settings.ThemeMode, scheme: ColorScheme): (v: ThemeValue)
    ensures v.theme == DarkPalette <==> v.isDark
    ensures v.isDark == EffectIsDark(stored, scheme)
  {
    var d := EffectIsDark(stored, scheme);
    ThemeValue(ChoosePalette(d), d)
  }

  /** Where a component runs: outside any provider the context holds
      `undefined`. */
  datatype Scope = Outside | Inside(value: ThemeValue)

  const OutsideProviderMessage := "useTheme must be used within a ThemeProvider"

  /** useTheme: the provider's value, or a thrown error outside a provider. */
  function UseTheme(scope: Scope): (r: Result<ThemeValue, string>)
    ensures r.Err? <==> scope == Outside
    ensures r.Err? ==> r.error == OutsideProviderMessage
    ensures r.Ok? ==> r.value == scope.value
  {
    match scope
    case Outside => Err(OutsideProviderMessage)
    case Inside(v) => Ok(v)
  }

  /** Inside a provider, `useTheme` hands out the provider's resolved flag
      and the matching palette. */
  lemma UseThemeInsideProvider(stored: Settings.ThemeMode, scheme: ColorScheme)
    ensures var r := UseTheme(Inside(ProviderValue(stored, scheme)));
      && r.Ok? && r.value.isDark == EffectIsDark(stored, scheme)
      && (r.value.theme == DarkPalette <==> r.value.isDark)
  {
  }
}
